=== FILE: README.md ===
# Salesforce Flow version cleanup — a verified model

This project models the decision logic of `flow_cleanup.py`, a script that
deletes old versions of Salesforce Flows. For each org it:

- authenticates with OAuth 2.0 (web-server flow with PKCE and a local
  redirect listener);
- finds out whether the org is production;
- fetches the non-Active Flow versions and keeps, per Flow definition, only
  the versions below the definition's newest one;
- asks for a typed `DELETE`;
- deletes the chosen versions through the Tooling composite API, in batches
  of 25.

A configuration file can list several orgs, which are then processed one
after another.

Every HTTP exchange, the browser, the listener thread, the prompts and the
clock are replaced by oracle values passed in as parameters. Once those are
fixed, everything modelled here is a pure function, except for three loops
written as methods:

- `Retention.FindLatestVersions`, the first pass of the retention filter;
- `Retention.ComputeDeletable`, the two-pass filter;
- `Orchestrator.RunBatchCleanup`, the org loop.

Modules, one per file:

| module | file | models |
|---|---|---|
| `Wrappers`, `Json` | `common.dfy` | `Option`; decoded JSON values and Python truthiness |
| `Strings` | `strings.dfy` | `str.strip`, `str(int)`, `int(str)`, `str.join` |
| `Retention` | `retention.dfy` | the latest-version filter of the two query methods |
| `BulkDelete` | `bulk_delete.dfy` | `bulk_delete_flows`: batching, composite requests, result accounting |
| `Callback` | `callback.dfy` | `CallbackHandler.do_GET` and the state the authenticator reads |
| `OAuth` | `oauth.dfy` | the decisions and request parameters of `authenticate` |
| `Config` | `config.dfy` | `load_config_file`, input normalisation, reading one org entry |
| `Queries` | `queries.dfy` | the SOQL texts and what the query methods return |
| `Orchestrator` | `orchestrator.dfy` | `check_if_production`, `run_cleanup`, `run_batch_cleanup` |

The reference meaning of the retention rule is `Retention.Superseded`: a
version may be deleted exactly when another fetched version of the same
definition has a strictly greater version number. The source computes this
in two passes through a map, which `Retention.ComputeDeletable` mirrors. The
lemmas prove that the two agree and derive the rule's consequences.

Some behaviours of the code are easy to miss; the model keeps each of them:

- A second redirect to `/callback` overwrites the stored code or error.
- A stored error wins over a stored code.
- A production org that is skipped counts as failed.
- A transport error in the bulk delete returns an empty result. The totals
  gathered so far are lost.
- An `Organization` reply whose `records` list is empty raises `IndexError`.
  `check_if_production` does not catch it; the `except Exception` of the
  batch loop does, so that org counts as failed and the next org runs.
  When the `records` key is absent, the org is a sandbox.
- The only cleanup types are `'1'` (all old versions) and `'2'` (named
  flows). No browse-and-select mode exists in this version of the script.

## Model

| member | source | states |
|---|---|---|
| Strings.Strip | flow_cleanup.py:221 | the result has no leading or trailing Python whitespace and is the input minus whitespace-only ends |
| Strings.StripIdempotent | flow_cleanup.py:221 | stripping twice is stripping once |
| Strings.NatToStringValue | flow_cleanup.py:675 | the decimal text of `n` reads back as `n` |
| Strings.IntToStringRoundTrip | flow_cleanup.py:235 | `int()` of the decimal text of any integer gives that integer back |
| Strings.ParseInt | flow_cleanup.py:235 | `int()` accepts exactly an optional sign followed by ASCII digits with single underscores between digits, and reads their decimal value, kept after `+` and negated after `-` |
| Strings.JoinLayout | flow_cleanup.py:568 | the joined text has each part at its offset, in order, and its length is the parts plus one separator between neighbours |
| Strings.JoinSeparator | flow_cleanup.py:568 | right after every part but the last comes the separator text itself |
| Retention.LatestVersionsSound | flow_cleanup.py:523-528 | every record's definition is mapped to a version at least its own, and every mapped value is some record's version |
| Retention.SupersededIffBelowLatest | flow_cleanup.py:531-536 | a record is below its definition's recorded maximum exactly when a strictly newer version of that definition exists |
| Retention.FindLatestVersions | flow_cleanup.py:519-528 | the first pass builds exactly the per-definition maximum map |
| Retention.ComputeDeletable | flow_cleanup.py:519-536 | the two passes return exactly the superseded records, in input order |
| Retention.DeletableMembership | flow_cleanup.py:592-609 | a record is in the plan iff it was fetched and a strictly newer version of its definition was fetched |
| Retention.DeletableIsSubsequence | flow_cleanup.py:531-536 | the plan is an order-preserving subsequence of the fetched records |
| Retention.DeletableMultiplicity | flow_cleanup.py:531-536 | a superseded record is planned as many times as it was fetched, and any other record never |
| Retention.LatestNeverDeletable | flow_cleanup.py:535 | a record holding its definition's maximum version is never planned, ties included |
| Retention.SingletonDefinitionKept | flow_cleanup.py:535 | the only version of a definition is never planned |
| Retention.EmptyInputEmptyPlan | flow_cleanup.py:519-536 | no records give an empty plan |
| Retention.DefinitionNeverEmptied | flow_cleanup.py:527-535 | every fetched definition keeps at least one version out of the plan |
| Retention.PlanSmallerThanInput | flow_cleanup.py:519-536 | a non-empty fetch always leaves at least one record out of the plan |
| Retention.PlanHasNoActiveVersion | flow_cleanup.py:496 | with the query's non-Active rows as input, no Active version is ever planned |
| BulkDelete.BatchCount | flow_cleanup.py:640-641 | the batch count is the ceiling of the id count over 25 |
| BulkDelete.BatchIds | flow_cleanup.py:658-661 | batch `k` is the `min(25, n - 25k)` ids starting at `25k`, a non-empty run of at most 25 |
| BulkDelete.BatchRequest | flow_cleanup.py:666-676 | the composite request for batch `k` has `allOrNone` false and one DELETE of the Flow's Tooling URL per id of the batch, in order, with reference id `batch{k+1}_del{i+1}` |
| BulkDelete.BatchesConcatenate | flow_cleanup.py:658-661 | the batches concatenate back to the id list, in order |
| BulkDelete.IdPlacement | flow_cleanup.py:666-676 | id `j` is deleted by sub-request `j mod 25` of batch `j div 25`, a DELETE of its Flow URL, with `allOrNone` false and reference id `batch{k+1}_del{i+1}` |
| BulkDelete.ReferenceIdsDistinct | flow_cleanup.py:675 | two sub-requests share a reference id only when they are the same sub-request |
| BulkDelete.TallyResponses | flow_cleanup.py:687-703 | successes are the 204 responses; success plus failure is the number of sub-responses; no failure iff every status is 204 |
| BulkDelete.BulkDeleteFlows | flow_cleanup.py:651-728 | batches are sent in order; totals are returned iff every batch was delivered, and then equal the sum of per-batch tallies; a transport failure stops at that batch and discards the totals |
| BulkDelete.SumTalliesCountsResponses | flow_cleanup.py:705-706 | the totals add up to the number of sub-responses returned |
| BulkDelete.FullAnswersAccountForEveryId | flow_cleanup.py:651-716 | when every batch gets one answer per sub-request, success plus failure equals the number of ids |
| BulkDelete.ShortReplyUndercounts | flow_cleanup.py:687-706 | when every reply lists no sub-responses, every batch is still sent and the totals are zero |
| BulkDelete.MissingKeyCountsNothing | flow_cleanup.py:691 | replies without the `compositeResponse` key count nothing |
| BulkDelete.TwentySevenIds | flow_cleanup.py:641-676 | 27 ids make two batches of 25 and 2, and the second batch's reference ids are `batch2_del1` and `batch2_del2` |
| Callback.HandleGet | flow_cleanup.py:34-70 | 200 iff a `/callback` path carries `code`; 400 iff it carries `error` and no `code`; 404 iff the path is not `/callback`; a `/callback` hit with neither sends nothing; only the written field changes |
| Callback.ErrorMessage | flow_cleanup.py:53-55 | the stored error is the first `error` value, `: `, then the first `error_description` value or `Unknown error` |
| Callback.Snapshot | flow_cleanup.py:37-55 | whatever the listener stores, code or error message, is non-empty |
| Callback.SnapshotIsLastWrite | flow_cleanup.py:40-55 | the state read is the code of the last code-bearing hit and the error of the last error-bearing hit |
| Callback.SecondCodeOverwritesFirst | flow_cleanup.py:40 | of two successful redirects, the second code is kept |
| Callback.OtherPathsIgnored | flow_cleanup.py:68-70 | a request to any other path leaves the stored state unchanged |
| OAuth.AuthorizeParams | flow_cleanup.py:346-353 | the authorize parameters hold each key once: `response_type` `code`, the client id, the local redirect URI, scope `api refresh_token`, the PKCE challenge and method `S256` |
| OAuth.TokenBody | flow_cleanup.py:397-407 | the token body holds each key once: grant type `authorization_code`, the client id, the redirect URI, the code and the verifier, and `client_secret` exactly when it is non-empty |
| OAuth.Verdict | flow_cleanup.py:382-392 | a stored error fails even when a code is stored; otherwise no code means timed out or cancelled; otherwise the code is used |
| OAuth.WaitOutcome | flow_cleanup.py:366-392 | the verdict after the served requests is an error iff some request stored one, and otherwise the last received code |
| OAuth.Credentials | flow_cleanup.py:283-308 | configured credentials are used as given; without a client id the stripped prompted id is used, with the stripped prompted secret when that id is non-empty; an empty id has no secret |
| OAuth.Authenticate | flow_cleanup.py:297-441 | success iff there is a client id, the listener binds, a code arrives with no error and the token reply has `access_token`; each other path ends with its own failure reason; once the listener binds, the authorize request carries exactly the authorize parameters; the token request is sent iff a code arrives with no error, to `/token` with exactly the token body for the stored code |
| Config.WithDefaults | flow_cleanup.py:185-191 | absent keys gain the six defaults and present keys keep their values |
| Config.LoadConfig | flow_cleanup.py:166-193 | no configuration iff `orgs` is missing or some org lacks `instance` or `client_id`; otherwise every org with defaults filled |
| Config.LoadConfigIdempotent | flow_cleanup.py:179-193 | loading a loaded configuration changes nothing |
| Config.LoadedOrgsComplete | flow_cleanup.py:179-191 | a loaded org has the required keys and every defaulted key |
| Config.NormalizeInstance | flow_cleanup.py:221-225 | the URL starts with `http`, with `https://` when the input does not, and ends with `.my.salesforce.com`; an already normal input is kept |
| Config.SchemeKeepsSuffixTest | flow_cleanup.py:223-225 | adding `https://` does not change whether the text ends with `.my.salesforce.com` |
| Config.NormalizeKeepsEntered | flow_cleanup.py:221-225 | the URL is exactly the stripped input, with `https://` in front unless it starts with `http` and the suffix behind unless it already ends with it |
| Config.NormalizeInstanceIdempotent | flow_cleanup.py:221-225 | normalising twice is normalising once |
| Config.ParsePort | flow_cleanup.py:232-247 | the port is in 1024..65535; empty, unparsable or out-of-range input gives 8080, and an in-range number is kept |
| Config.ParsePortRoundTrip | flow_cleanup.py:232-247 | typing a valid port's decimal text gives that port |
| Config.ReadOrg | flow_cleanup.py:806-834 | the entry's `instance`, `client_id`, `client_secret`, `callback_port` (default 8080), flags, `cleanup_type` and `flow_names` (default `[]`) are the values read; a missing `client_id` or `client_secret` fails the org |
| Config.MinimalOrgReadsDefaults | flow_cleanup.py:185-191 | an org given only `instance` and `client_id` runs on port 8080 with no secret, the production check, and cleanup type `'1'` |
| Queries.QueriesExcludeActive | flow_cleanup.py:496 | both query texts select Flow rows and end with the non-Active filter and ordering |
| Queries.SpecificQueryNamesEachFlow | flow_cleanup.py:568-569 | the condition for each requested name appears at its offset in the specific-flows query |
| Queries.SpecificQueryJoinsWithOr | flow_cleanup.py:568 | an ` OR ` follows the condition of every requested name but the last |
| Queries.SpecificQuery | flow_cleanup.py:568-569 | the specific-flows query opens with the Flow select and `(` and closes with `) AND` and the non-Active filter and ordering |
| Queries.QueryPlan | flow_cleanup.py:510-559 | a failed query plans nothing; otherwise the plan is the superseded fetched rows, in fetch order, each as many times as it was fetched |
| Orchestrator.CheckIfProduction | flow_cleanup.py:444-487 | production iff the query fails or the first row's `IsSandbox` is false-valued; raises iff the row list is empty |
| Orchestrator.MissingSandboxFlagMeansSandbox | flow_cleanup.py:466-468 | a missing `IsSandbox` or missing rows mean sandbox; a failed query means production |
| Orchestrator.FlowNameList | flow_cleanup.py:743-745 | a list of strings gives those names; a string gives its characters; anything else fails |
| Orchestrator.RunCleanup | flow_cleanup.py:730-791 | type `'1'` and `'2'` pick their query and others query nothing; the plan is the superseded rows, in fetch order and with their multiplicity; deletion happens iff the plan is non-empty and `DELETE` was typed, and then deletes exactly the plan's ids |
| Orchestrator.CleanupStage | flow_cleanup.py:832-842 | the cleanup runs, with the decided production flag, iff nothing raises, `cleanup_type` is present and, under type `'2'`, `flow_names` is usable; otherwise the org fails |
| Orchestrator.ProcessOrg | flow_cleanup.py:802-847 | cleanup needs authentication; an authenticated org that skips the check or is a sandbox runs the cleanup stage as non-production, and a production org runs it as production iff it opted in, otherwise it is skipped; an exception in the production check fails the org; deletion needs `DELETE` |
| Orchestrator.FailedCheckMeansProduction | flow_cleanup.py:482-487 | a failed org-info query makes the org production, so it is skipped without the opt-in |
| Orchestrator.SuccessIgnoresDeleteReplies | flow_cleanup.py:841-842 | whether an org counts as successful does not depend on the delete replies |
| Orchestrator.RunBatchCleanup | flow_cleanup.py:793-847 | each org's outcome is its own processing; successes are the orgs whose cleanup ran; successes plus failures equal the org count |
| Orchestrator.NoSuccessIffNoCleanup | flow_cleanup.py:857-860 | no success is reported exactly when no org's cleanup ran |
| Orchestrator.NothingDeletedWithoutConfirmation | flow_cleanup.py:778-781 | without a typed `DELETE`, no org deletes anything, even with `auto_confirm_production` |

## Left out

- HTTP traffic, the browser, the listener thread and its shutdown: every
  reply is an oracle value (`AuthOracle`, `OrgInfoReply`, `QueryReply`,
  `PostReply`).
- The 0.1-second polling loop and its 300-second timeout. They are replaced
  by the list of requests the listener served before the state is read.
  The timeout is the case where no code and no error arrived.
- PKCE verifier and challenge generation. Both values are oracle inputs.
- `urlparse`/`parse_qs` and `urlencode`. A callback request arrives with its
  query already parsed, and request parameters stay lists of pairs.
- Logging, `mask_sensitive_data`, `save_deletion_list`, every `print`, and
  the summary listing of the first five versions.
- JSON decoding of the configuration file and of replies. A file that is
  missing or malformed is not modelled; the model starts from the decoded
  value.
- Errno classification of bind errors. `BindOutcome` gives the class
  directly.
- The interactive single-org path: the main block, the scope and flow-name
  prompts of `get_user_input`, and the `mode` dispatch. Only the instance
  and port normalisation of `get_user_input` is modelled.
- Non-ASCII digits in `int()`. `Strings.ParseInt` accepts ASCII digits with
  single underscores and an optional sign. `str.strip()` is modelled over
  every character `str.isspace` accepts.
- Config.ReadOrg: a `client_id` or `client_secret` that is a true non-string,
  a non-string `instance`, or a non-number `callback_port` is treated as an
  exception that fails the org. Python would carry such a value further
  before failing, or, for some values, succeed.
- Orchestrator.FlowNameList: a JSON object used as `flow_names` is treated
  as unusable. Python would iterate its keys in insertion order, which a
  map does not keep.
- Orchestrator.ProcessOrg: exceptions the model does not derive (a record
  lacking a field, a decode error, a failed file write) are an oracle choice
  raised on entering a stage. Whatever the raising call had already done,
  such as deletions, is not modelled.
- The `access_token` and `instance_url` kept on the object between orgs:
  each org authenticates again before any request, so they do not affect
  the modelled outcomes.

=== FILE: bulk_delete.dfy ===
/** Batched bulk deletion through the Tooling API composite endpoint: the ids
    are cut into consecutive batches of at most 25, each batch is one
    composite request of DELETE sub-requests with `allOrNone` false, and the
    sub-responses are counted as successes (HTTP 204) or failures. */
module BulkDelete {
  import opened Wrappers
  import opened Strings

  /** The composite API's limit on sub-requests per call. */
  const BatchSize: nat := 25

  const ApiVersion: string := "v60.0"

  function Min(a: int, b: int): int {
    if a <= b then a else b
  }

  // ---------------------------------------------------------------------------
  // Partition
  // ---------------------------------------------------------------------------

  /** `(n + batch_size - 1) // batch_size`: the fewest batches of at most 25
      that cover `n` ids. */
  function BatchCount(n: nat): (count: nat)
    ensures n <= count * BatchSize
    ensures count > 0 ==> (count - 1) * BatchSize < n
  {
    (n + BatchSize - 1) / BatchSize
  }

  /** Batch `k` (from 0): `ids[25k .. min(25k + 25, n)]`. */
  function BatchIds(ids: seq<string>, k: nat): (batch: seq<string>)
    requires k < BatchCount(|ids|)
    ensures 0 < |batch| <= BatchSize
    ensures |batch| == Min(BatchSize, |ids| - k * BatchSize)
    ensures k * BatchSize + |batch| <= |ids|
    ensures forall i :: 0 <= i < |batch| ==> batch[i] == ids[k * BatchSize + i]
  {
    ids[k * BatchSize..Min(k * BatchSize + BatchSize, |ids|)]
  }

  /** Batches `0 .. j-1` laid end to end. */
  function BatchesUpTo(ids: seq<string>, j: nat): seq<string>
    requires j <= BatchCount(|ids|)
  {
    if j == 0 then [] else BatchesUpTo(ids, j - 1) + BatchIds(ids, j - 1)
  }

  /** The first `j` batches are exactly the first `min(25j, n)` ids. */
  lemma {:induction false} BatchesUpToPrefix(ids: seq<string>, j: nat)
    requires j <= BatchCount(|ids|)
    ensures BatchesUpTo(ids, j) == ids[..Min(j * BatchSize, |ids|)]
  {
    if j > 0 {
      BatchesUpToPrefix(ids, j - 1);
      assert (j - 1) * BatchSize < |ids|;
      assert ids[..Min(j * BatchSize, |ids|)]
          == ids[..(j - 1) * BatchSize] + ids[(j - 1) * BatchSize..Min(j * BatchSize, |ids|)];
    }
  }

  /** The batches, concatenated in order, give back the id list. */
  lemma BatchesConcatenate(ids: seq<string>)
    ensures BatchesUpTo(ids, BatchCount(|ids|)) == ids
  {
    BatchesUpToPrefix(ids, BatchCount(|ids|));
    assert ids[..|ids|] == ids;
  }

  // ---------------------------------------------------------------------------
  // Composite requests
  // ---------------------------------------------------------------------------

  datatype SubRequest = SubRequest(httpMethod: string, url: string, referenceId: string)

  datatype CompositeRequest = CompositeRequest(allOrNone: bool, subRequests: seq<SubRequest>)

  /** `batch{k+1}_del{i+1}`: the reference id of sub-request `i` of batch `k`. */
  function ReferenceId(k: nat, i: nat): string {
    "batch" + NatToString(k + 1) + "_del" + NatToString(i + 1)
  }

  function DeleteUrl(id: string): string {
    "/services/data/" + ApiVersion + "/tooling/sobjects/Flow/" + id
  }

  function DeleteOf(ids: seq<string>, k: nat, i: nat): SubRequest
    requires k < BatchCount(|ids|) && i < |BatchIds(ids, k)|
  {
    SubRequest("DELETE", DeleteUrl(BatchIds(ids, k)[i]), ReferenceId(k, i))
  }

  /** The composite request sent for batch `k`. */
  function BatchRequest(ids: seq<string>, k: nat): (req: CompositeRequest)
    requires k < BatchCount(|ids|)
    ensures !req.allOrNone
    ensures |req.subRequests| == |BatchIds(ids, k)|
    ensures |req.subRequests| == |BatchIds(ids, k)| &&
            forall i :: 0 <= i < |req.subRequests| ==>
              req.subRequests[i] == SubRequest("DELETE", DeleteUrl(ids[k * BatchSize + i]), ReferenceId(k, i))
  {
    CompositeRequest(false, seq(|BatchIds(ids, k)|, i requires 0 <= i < |BatchIds(ids, k)| => DeleteOf(ids, k, i)))
  }

  /** Each id is deleted by exactly the sub-request at position `j % 25` of
      batch `j / 25`, whose reference id names that batch and position, in a
      request that never asks for all-or-nothing. */
  lemma IdPlacement(ids: seq<string>, j: nat)
    requires j < |ids|
    ensures j / BatchSize < BatchCount(|ids|)
    ensures j % BatchSize < |BatchRequest(ids, j / BatchSize).subRequests|
    ensures !BatchRequest(ids, j / BatchSize).allOrNone
    ensures BatchRequest(ids, j / BatchSize).subRequests[j % BatchSize]
         == SubRequest("DELETE", DeleteUrl(ids[j]), ReferenceId(j / BatchSize, j % BatchSize))
  {
    var k := j / BatchSize;
    assert k * BatchSize <= j;
  }

  /** The number of decimal digits `s` starts with. */
  function LeadingDigits(s: string): nat {
    if |s| == 0 || !IsDigit(s[0]) then 0 else 1 + LeadingDigits(s[1..])
  }

  lemma {:induction false} LeadingDigitsOfNumeral(a: string, t: string)
    requires AllDigits(a)
    requires |t| > 0 && !IsDigit(t[0])
    ensures LeadingDigits(a + t) == |a|
  {
    if |a| > 0 {
      assert (a + t)[1..] == a[1..] + t;
      LeadingDigitsOfNumeral(a[1..], t);
    }
  }

  /** No two sub-requests of a run share a reference id. */
  lemma ReferenceIdsDistinct(k: nat, i: nat, k': nat, i': nat)
    requires ReferenceId(k, i) == ReferenceId(k', i')
    ensures k == k' && i == i'
  {
    var a, b := NatToString(k + 1), NatToString(i + 1);
    var a', b' := NatToString(k' + 1), NatToString(i' + 1);
    var s := a + ("_del" + b);
    var s' := a' + ("_del" + b');
    assert ReferenceId(k, i) == "batch" + s;
    assert ReferenceId(k', i') == "batch" + s';
    assert s == ReferenceId(k, i)[5..] == s';
    LeadingDigitsOfNumeral(a, "_del" + b);
    LeadingDigitsOfNumeral(a', "_del" + b');
    assert a == s[..|a|] == a';
    NatToStringInjective(k + 1, k' + 1);
    assert b == s[|a| + 4..] == b';
    NatToStringInjective(i + 1, i' + 1);
  }

  // ---------------------------------------------------------------------------
  // Replies and accounting
  // ---------------------------------------------------------------------------

  /** One entry of `compositeResponse`; either field may be missing. */
  datatype SubResponse = SubResponse(referenceId: Option<string>, httpStatusCode: Option<int>)

  /** What the composite POST for one batch yields: a transport failure or
      non-2xx status (`RequestException`), or a decoded body whose
      `compositeResponse` may be missing. */
  datatype PostReply =
    | PostTransportError
    | PostOk(compositeResponse: Option<seq<SubResponse>>)

  /** `sub_response.get('httpStatusCode', 0)`. */
  function StatusOf(r: SubResponse): int {
    r.httpStatusCode.GetOr(0)
  }

  /** `result.get('compositeResponse', [])`. */
  function ResponsesOf(reply: PostReply): seq<SubResponse>
    requires reply.PostOk?
  {
    reply.compositeResponse.GetOr([])
  }

  datatype Tally = Tally(successful: nat, failed: nat)

  function Add(a: Tally, b: Tally): Tally {
    Tally(a.successful + b.successful, a.failed + b.failed)
  }

  /** The number of sub-responses reporting 204. */
  function CountNoContent(rs: seq<SubResponse>): nat {
    if |rs| == 0 then 0
    else CountNoContent(rs[..|rs| - 1]) + (if StatusOf(rs[|rs| - 1]) == 204 then 1 else 0)
  }

  /** The per-batch count: every sub-response is either a success (204) or a
      failure (anything else, a missing status included). */
  function TallyResponses(rs: seq<SubResponse>): (t: Tally)
    ensures t.successful == CountNoContent(rs)
    ensures t.successful + t.failed == |rs|
    ensures t.failed == 0 <==> forall i :: 0 <= i < |rs| ==> StatusOf(rs[i]) == 204
  {
    if |rs| == 0 then Tally(0, 0)
    else
      var t := TallyResponses(rs[..|rs| - 1]);
      assert forall i :: 0 <= i < |rs| - 1 ==> rs[..|rs| - 1][i] == rs[i];
      if StatusOf(rs[|rs| - 1]) == 204 then Tally(t.successful + 1, t.failed)
      else Tally(t.successful, t.failed + 1)
  }

  /** Every one of the first `j` batches got a reply body. */
  predicate AllDelivered(post: nat -> PostReply, j: nat) {
    forall k :: 0 <= k < j ==> post(k).PostOk?
  }

  /** Reference totals: the per-batch tallies of batches `0 .. j-1` summed. */
  function SumTallies(post: nat -> PostReply, j: nat): Tally
    requires AllDelivered(post, j)
  {
    if j == 0 then Tally(0, 0)
    else Add(SumTallies(post, j - 1), TallyResponses(ResponsesOf(post(j - 1))))
  }

  /** Reference count: the sub-responses of batches `0 .. j-1`. */
  function SumResponses(post: nat -> PostReply, j: nat): nat
    requires AllDelivered(post, j)
  {
    if j == 0 then 0 else SumResponses(post, j - 1) + |ResponsesOf(post(j - 1))|
  }

  /** What one call of the bulk delete leaves behind: the composite requests
      actually sent, and the totals it returns (`None` for the empty dict it
      returns after a transport failure). */
  datatype DeleteRun = DeleteRun(sent: seq<CompositeRequest>, totals: Option<Tally>)

  predicate SentInOrder(ids: seq<string>, sent: seq<CompositeRequest>) {
    && |sent| <= BatchCount(|ids|)
    && forall k :: 0 <= k < |sent| ==> sent[k] == BatchRequest(ids, k)
  }

  /** The batch loop from batch `k` on, with the totals and requests so far. */
  function RunBatches(ids: seq<string>, post: nat -> PostReply, k: nat, acc: Tally, sent: seq<CompositeRequest>)
    : (run: DeleteRun)
    requires k <= BatchCount(|ids|)
    requires |sent| == k && SentInOrder(ids, sent)
    requires AllDelivered(post, k) && acc == SumTallies(post, k)
    ensures SentInOrder(ids, run.sent)
    ensures run.totals.Some? <==> AllDelivered(post, BatchCount(|ids|))
    ensures run.totals.Some? ==>
              |run.sent| == BatchCount(|ids|) && run.totals.value == SumTallies(post, BatchCount(|ids|))
    ensures run.totals.None? ==>
              |run.sent| > k && post(|run.sent| - 1).PostTransportError? && AllDelivered(post, |run.sent| - 1)
    decreases BatchCount(|ids|) - k
  {
    if k == BatchCount(|ids|) then DeleteRun(sent, Some(acc))
    else
      var sent' := sent + [BatchRequest(ids, k)];
      SentExtends(ids, sent, k);
      match post(k)
      case PostTransportError => DeleteRun(sent', None)
      case PostOk(_) =>
        assert AllDelivered(post, k + 1);
        RunBatches(ids, post, k + 1, Add(acc, TallyResponses(ResponsesOf(post(k)))), sent')
  }

  lemma SentExtends(ids: seq<string>, sent: seq<CompositeRequest>, k: nat)
    requires k < BatchCount(|ids|) && |sent| == k && SentInOrder(ids, sent)
    ensures SentInOrder(ids, sent + [BatchRequest(ids, k)])
  {
    var sent' := sent + [BatchRequest(ids, k)];
    forall j | 0 <= j < |sent'|
      ensures sent'[j] == BatchRequest(ids, j)
    {
      if j < k {
        assert sent'[j] == sent[j];
      }
    }
  }

  /** `bulk_delete_flows`: one composite request per batch, in order. With
      every batch answered, the result is the sum of the per-batch tallies;
      the first transport failure stops the loop, nothing after it is sent,
      and the totals gathered so far are discarded. */
  function BulkDeleteFlows(ids: seq<string>, post: nat -> PostReply): (run: DeleteRun)
    ensures SentInOrder(ids, run.sent)
    ensures run.totals.Some? <==> AllDelivered(post, BatchCount(|ids|))
    ensures run.totals.Some? ==>
              |run.sent| == BatchCount(|ids|) && run.totals.value == SumTallies(post, BatchCount(|ids|))
    ensures run.totals.None? ==>
              |run.sent| > 0 && post(|run.sent| - 1).PostTransportError? && AllDelivered(post, |run.sent| - 1)
  {
    RunBatches(ids, post, 0, Tally(0, 0), [])
  }

  // ---------------------------------------------------------------------------
  // Accounting properties
  // ---------------------------------------------------------------------------

  /** Successes plus failures count the sub-responses the server returned. */
  lemma {:induction false} SumTalliesCountsResponses(post: nat -> PostReply, j: nat)
    requires AllDelivered(post, j)
    ensures SumTallies(post, j).successful + SumTallies(post, j).failed == SumResponses(post, j)
  {
    if j > 0 {
      SumTalliesCountsResponses(post, j - 1);
    }
  }

  /** When the server answers every sub-request of every batch, the totals
      account for each id exactly once. */
  lemma {:induction false} FullAnswersAccountForEveryId(ids: seq<string>, post: nat -> PostReply)
    requires AllDelivered(post, BatchCount(|ids|))
    requires forall k :: 0 <= k < BatchCount(|ids|) ==> |ResponsesOf(post(k))| == |BatchIds(ids, k)|
    ensures BulkDeleteFlows(ids, post).totals.Some?
    ensures BulkDeleteFlows(ids, post).totals.value.successful
          + BulkDeleteFlows(ids, post).totals.value.failed == |ids|
  {
    var n := BatchCount(|ids|);
    SumTalliesCountsResponses(post, n);
    ResponsesMatchBatches(ids, post, n);
    BatchesUpToPrefix(ids, n);
  }

  lemma {:induction false} ResponsesMatchBatches(ids: seq<string>, post: nat -> PostReply, j: nat)
    requires j <= BatchCount(|ids|)
    requires AllDelivered(post, j)
    requires forall k :: 0 <= k < j ==> |ResponsesOf(post(k))| == |BatchIds(ids, k)|
    ensures SumResponses(post, j) == |BatchesUpTo(ids, j)|
  {
    if j > 0 {
      ResponsesMatchBatches(ids, post, j - 1);
    }
  }

  /** A reply body that lists no sub-responses: `compositeResponse` is
      missing (read as `[]`) or an empty list. */
  predicate ListsNothing(reply: PostReply) {
    reply.PostOk? && ResponsesOf(reply) == []
  }

  /** The totals count sub-responses, not ids: when every reply lists no
      sub-responses, every batch is still sent, yet nothing is counted. */
  lemma ShortReplyUndercounts(ids: seq<string>, post: nat -> PostReply)
    requires |ids| > 0
    requires forall k :: ListsNothing(post(k))
    ensures |BulkDeleteFlows(ids, post).sent| == BatchCount(|ids|) > 0
    ensures BulkDeleteFlows(ids, post).totals == Some(Tally(0, 0))
  {
    var n := BatchCount(|ids|);
    ZeroTallies(post, n);
  }

  /** A reply without the `compositeResponse` key is one such reply. */
  lemma MissingKeyCountsNothing(ids: seq<string>)
    requires |ids| > 0
    ensures BulkDeleteFlows(ids, k => PostOk(None)).totals == Some(Tally(0, 0))
  {
    ShortReplyUndercounts(ids, k => PostOk(None));
  }

  lemma {:induction false} ZeroTallies(post: nat -> PostReply, j: nat)
    requires forall k :: ListsNothing(post(k))
    ensures AllDelivered(post, j)
    ensures SumTallies(post, j) == Tally(0, 0)
  {
    if j > 0 {
      ZeroTallies(post, j - 1);
    }
  }

  /** Twenty-seven ids make two batches, 25 and 2; the second batch's
      sub-requests are `batch2_del1` and `batch2_del2`. */
  lemma TwentySevenIds(ids: seq<string>)
    requires |ids| == 27
    ensures BatchCount(|ids|) == 2
    ensures |BatchIds(ids, 0)| == 25 && |BatchIds(ids, 1)| == 2
    ensures BatchRequest(ids, 1).subRequests[0].referenceId == "batch2_del1"
    ensures BatchRequest(ids, 1).subRequests[1].referenceId == "batch2_del2"
  {
    assert NatToString(2) == "2";
    assert NatToString(1) == "1";
  }
}

=== FILE: callback.dfy ===
/** The local OAuth redirect listener (`CallbackHandler.do_GET`): each GET it
    serves may store an authorization code or an authorization error on the
    server object, and the authenticator later reads whatever is stored. */
module Callback {
  import opened Wrappers
  import opened Strings

  /** The value list `urllib.parse.parse_qs` gives a parameter: never empty,
      and without blank values, which `parse_qs` drops by default. */
  type QueryValues = vs: seq<string> | |vs| > 0 && forall i :: 0 <= i < |vs| ==> vs[i] != "" witness ["x"]

  /** A GET as the handler sees it: the raw request path and its query string
      already parsed by `parse_qs` (URL parsing itself is not modelled). */
  datatype CallbackRequest = CallbackRequest(path: string, query: map<string, QueryValues>)

  /** The two fields the handler writes on the server: `auth_code`, `auth_error`. */
  datatype ListenerState = ListenerState(authCode: Option<string>, authError: Option<string>)

  /** The status line the handler sends, if any: a `/callback` hit with
      neither `code` nor `error` sends nothing at all. */
  datatype Response = Status(code: int) | NoResponse

  datatype Handled = Handled(state: ListenerState, response: Response)

  /** The state right after the server is created. */
  const Fresh: ListenerState := ListenerState(None, None)

  predicate IsCallbackPath(req: CallbackRequest) {
    StartsWith(req.path, "/callback")
  }

  predicate CarriesCode(req: CallbackRequest) {
    IsCallbackPath(req) && "code" in req.query
  }

  predicate CarriesError(req: CallbackRequest) {
    IsCallbackPath(req) && "code" !in req.query && "error" in req.query
  }

  /** `f"{error}: {error_desc}"`, the description defaulting to `Unknown error`. */
  function ErrorMessage(query: map<string, QueryValues>): (m: string)
    requires "error" in query
    ensures StartsWith(m, query["error"][0] + ": ")
    ensures "error_description" in query ==> EndsWith(m, query["error_description"][0])
    ensures "error_description" !in query ==> EndsWith(m, "Unknown error")
    ensures |m| == |query["error"][0]| + 2
                   + (if "error_description" in query then |query["error_description"][0]| else |"Unknown error"|)
  {
    var desc := if "error_description" in query then query["error_description"][0] else "Unknown error";
    Around(query["error"][0] + ": ", "", desc);
    assert query["error"][0] + ": " + "" + desc == query["error"][0] + ": " + desc;
    query["error"][0] + ": " + desc
  }

  /** `do_GET`. A `/callback` request carrying `code` stores its first value
      and answers 200; otherwise one carrying `error` stores the error message
      and answers 400; any other path answers 404. Whatever is stored
      replaces what was there, and only the written field changes. */
  function HandleGet(st: ListenerState, req: CallbackRequest): (h: Handled)
    ensures h.response == Status(200) <==> CarriesCode(req)
    ensures h.response == Status(400) <==> CarriesError(req)
    ensures h.response == Status(404) <==> !IsCallbackPath(req)
    ensures IsCallbackPath(req) && !CarriesCode(req) && !CarriesError(req) ==> h.response == NoResponse
    ensures CarriesCode(req) ==> h.state == st.(authCode := Some(req.query["code"][0]))
    ensures CarriesError(req) ==> h.state == st.(authError := Some(ErrorMessage(req.query)))
    ensures !CarriesCode(req) && !CarriesError(req) ==> h.state == st
  {
    if IsCallbackPath(req) then
      if "code" in req.query then
        Handled(st.(authCode := Some(req.query["code"][0])), Status(200))
      else if "error" in req.query then
        Handled(st.(authError := Some(ErrorMessage(req.query))), Status(400))
      else
        Handled(st, NoResponse)
    else
      Handled(st, Status(404))
  }

  /** The state the authenticator reads: every request the listener served
      before the read, applied in arrival order to a fresh server. Whatever
      is stored is non-empty. */
  function Snapshot(reqs: seq<CallbackRequest>): (st: ListenerState)
    ensures st.authCode.Some? ==> st.authCode.value != ""
    ensures st.authError.Some? ==> st.authError.value != ""
  {
    if |reqs| == 0 then Fresh
    else HandleGet(Snapshot(reqs[..|reqs| - 1]), reqs[|reqs| - 1]).state
  }

  /** Reference: the first `code` value of the last request that carried one. */
  function LastCode(reqs: seq<CallbackRequest>): Option<string> {
    if |reqs| == 0 then None
    else if CarriesCode(reqs[|reqs| - 1]) then Some(reqs[|reqs| - 1].query["code"][0])
    else LastCode(reqs[..|reqs| - 1])
  }

  /** Reference: the error message of the last request that stored an error. */
  function LastError(reqs: seq<CallbackRequest>): Option<string> {
    if |reqs| == 0 then None
    else if CarriesError(reqs[|reqs| - 1]) then Some(ErrorMessage(reqs[|reqs| - 1].query))
    else LastError(reqs[..|reqs| - 1])
  }

  /** What the authenticator reads is the code of the last code-bearing hit
      and the error of the last error-bearing hit: a later hit overwrites an
      earlier one, and a code and an error can both be stored. */
  lemma {:induction false} SnapshotIsLastWrite(reqs: seq<CallbackRequest>)
    ensures Snapshot(reqs).authCode == LastCode(reqs)
    ensures Snapshot(reqs).authError == LastError(reqs)
  {
    if |reqs| > 0 {
      SnapshotIsLastWrite(reqs[..|reqs| - 1]);
    }
  }

  /** Two successful redirects in a row: the second code is the one kept. */
  lemma SecondCodeOverwritesFirst(first: CallbackRequest, second: CallbackRequest)
    requires CarriesCode(first) && CarriesCode(second)
    ensures Snapshot([first, second]).authCode == Some(second.query["code"][0])
  {
    SnapshotIsLastWrite([first, second]);
  }

  /** Paths other than `/callback...` never change what is stored. */
  lemma {:induction false} OtherPathsIgnored(reqs: seq<CallbackRequest>, req: CallbackRequest)
    requires !IsCallbackPath(req)
    ensures Snapshot(reqs + [req]) == Snapshot(reqs)
  {
    assert (reqs + [req])[..|reqs|] == reqs;
  }
}

=== FILE: common.dfy ===
/** Small shared vocabulary: an optional value, and the JSON values a
    configuration file or an API reply can carry. */
module Wrappers {

  /** A value that may be absent: a missing dictionary key, a `None`. */
  datatype Option<+T> = None | Some(value: T) {

    /** The value, or `default` when absent (Python's `d.get(k, default)`). */
    function GetOr(default: T): T {
      match this
      case Some(v) => v
      case None => default
    }
  }
}

/** JSON values as the script sees them once decoded, and Python's notion of
    truthiness on them (used by every `if value:` and `if not value:` test the
    script applies to decoded data). */
module Json {

  datatype JValue =
    | JNull
    | JBool(b: bool)
    | JNum(n: int)
    | JStr(s: string)
    | JArr(items: seq<JValue>)
    | JObj(fields: map<string, JValue>)

  /** Python's `bool(v)` for a decoded JSON value: `None`, `False`, `0`, `""`,
      `[]` and `{}` are false, everything else is true. */
  predicate Truthy(v: JValue) {
    match v
    case JNull => false
    case JBool(b) => b
    case JNum(n) => n != 0
    case JStr(s) => s != ""
    case JArr(items) => items != []
    case JObj(fields) => fields != map[]
  }
}

=== FILE: config.dfy ===
/** Where an org's settings come from: `load_config_file` (required keys and
    `setdefault` filling), the normalisation `get_user_input` applies to the
    typed instance URL and callback port, and the reading of one validated
    org entry by the batch loop. */
module Config {
  import opened Wrappers
  import opened Json
  import opened Strings

  /** One entry of the configuration file's `orgs` list. */
  type OrgDoc = map<string, JValue>

  /** The decoded configuration file; only its `orgs` key is read. */
  datatype ConfigDoc = ConfigDoc(orgs: Option<seq<OrgDoc>>)

  const DefaultPort: int := 8080

  /** The six `setdefault` values. */
  const Defaults: map<string, JValue> := map[
    "client_secret" := JStr(""),
    "cleanup_type" := JStr("1"),
    "flow_names" := JArr([]),
    "skip_production_check" := JBool(false),
    "auto_confirm_production" := JBool(false),
    "callback_port" := JNum(DefaultPort)]

  predicate HasRequiredFields(org: OrgDoc) {
    "instance" in org && "client_id" in org
  }

  /** `org.setdefault(...)` for each default: absent keys gain their default,
      present keys keep their value. */
  function WithDefaults(org: OrgDoc): (r: OrgDoc)
    ensures r.Keys == org.Keys + Defaults.Keys
    ensures forall k :: k in org ==> r[k] == org[k]
    ensures forall k :: k in Defaults && k !in org ==> r[k] == Defaults[k]
  {
    Defaults + org
  }

  /** The org loop of `load_config_file` from entry `i` on. */
  function ValidateFrom(orgs: seq<OrgDoc>, i: nat): (r: Option<seq<OrgDoc>>)
    requires i <= |orgs|
    ensures r.None? <==> exists j :: i <= j < |orgs| && !HasRequiredFields(orgs[j])
    ensures r.Some? ==> |r.value| == |orgs| - i
    ensures r.Some? ==> forall j :: 0 <= j < |r.value| ==> r.value[j] == WithDefaults(orgs[i + j])
    decreases |orgs| - i
  {
    if i == |orgs| then Some([])
    else if !HasRequiredFields(orgs[i]) then None
    else
      match ValidateFrom(orgs, i + 1)
      case None => None
      case Some(rest) => Some([WithDefaults(orgs[i])] + rest)
  }

  /** `load_config_file` once the JSON is decoded: `None` (the script prints
      an error and returns `None`) when `orgs` is missing or some org lacks
      `instance` or `client_id`; otherwise the orgs with defaults filled in. */
  function LoadConfig(doc: ConfigDoc): (r: Option<seq<OrgDoc>>)
    ensures r.None? <==>
              || doc.orgs.None?
              || exists j :: 0 <= j < |doc.orgs.value| && !HasRequiredFields(doc.orgs.value[j])
    ensures r.Some? ==>
              && |r.value| == |doc.orgs.value|
              && forall j :: 0 <= j < |r.value| ==> r.value[j] == WithDefaults(doc.orgs.value[j])
  {
    match doc.orgs
    case None => None
    case Some(orgs) => ValidateFrom(orgs, 0)
  }

  /** A loaded configuration loads again to itself: filling defaults twice
      changes nothing. */
  lemma LoadConfigIdempotent(doc: ConfigDoc)
    requires LoadConfig(doc).Some?
    ensures LoadConfig(ConfigDoc(LoadConfig(doc))) == LoadConfig(doc)
  {
    var orgs := LoadConfig(doc).value;
    forall j | 0 <= j < |orgs|
      ensures HasRequiredFields(orgs[j]) && WithDefaults(orgs[j]) == orgs[j]
    {
      assert HasRequiredFields(doc.orgs.value[j]);
    }
    var again := LoadConfig(ConfigDoc(Some(orgs)));
    assert again.Some?;
    assert again.value == orgs;
  }

  /** After loading, every org has every key the batch loop reads. */
  lemma LoadedOrgsComplete(doc: ConfigDoc, j: nat)
    requires LoadConfig(doc).Some? && j < |LoadConfig(doc).value|
    ensures HasRequiredFields(LoadConfig(doc).value[j])
    ensures Defaults.Keys <= LoadConfig(doc).value[j].Keys
  {
    assert HasRequiredFields(doc.orgs.value[j]);
  }

  // ---------------------------------------------------------------------------
  // Interactive input normalisation
  // ---------------------------------------------------------------------------

  const InstanceSuffix: string := ".my.salesforce.com"

  /** The typed instance, stripped; `https://` put in front unless it already
      starts with `http`; `.my.salesforce.com` appended unless it already
      ends with it. */
  function NormalizeInstance(raw: string): (url: string)
    ensures StartsWith(url, "http")
    ensures !StartsWith(Strip(raw), "http") ==> StartsWith(url, "https://")
    ensures EndsWith(url, InstanceSuffix)
    ensures StartsWith(Strip(raw), "http") && EndsWith(Strip(raw), InstanceSuffix) ==> url == Strip(raw)
  {
    var s := Strip(raw);
    var withScheme := if StartsWith(s, "http") then s else "https://" + s;
    assert StartsWith(withScheme, "http");
    if EndsWith(withScheme, InstanceSuffix) then withScheme
    else
      assert (withScheme + InstanceSuffix)[..4] == withScheme[..4];
      withScheme + InstanceSuffix
  }

  /** Putting `https://` in front does not change whether a text ends with
      the instance suffix: the suffix starts with a `.`, which the scheme
      does not contain. */
  lemma SchemeKeepsSuffixTest(s: string)
    ensures EndsWith("https://" + s, InstanceSuffix) <==> EndsWith(s, InstanceSuffix)
  {
    var w := "https://" + s;
    if |s| >= |InstanceSuffix| {
      assert w[|w| - |InstanceSuffix|..] == s[|s| - |InstanceSuffix|..];
    } else if |w| >= |InstanceSuffix| {
      var i := |w| - |InstanceSuffix|;
      assert w[i] == "https://"[i] != '.';
      assert w[i..][0] != InstanceSuffix[0];
    }
  }

  /** The normalised URL is the entered text with `https://` in front unless
      it starts with `http`, and the instance suffix behind unless it already
      ends with it; nothing else is added or changed. */
  lemma NormalizeKeepsEntered(raw: string)
    ensures var s := Strip(raw);
            var o := if StartsWith(s, "http") then 0 else 8;
            o + |s| <= |NormalizeInstance(raw)| && NormalizeInstance(raw)[o..o + |s|] == s
    ensures var s := Strip(raw);
            NormalizeInstance(raw)
            == (if StartsWith(s, "http") then "" else "https://")
               + s
               + (if EndsWith(s, InstanceSuffix) then "" else InstanceSuffix)
    ensures |NormalizeInstance(raw)| == (if StartsWith(Strip(raw), "http") then 0 else 8) + |Strip(raw)|
                                        + (if EndsWith(Strip(raw), InstanceSuffix) then 0 else |InstanceSuffix|)
  {
    var s := Strip(raw);
    var scheme := if StartsWith(s, "http") then "" else "https://";
    var tail := if EndsWith(s, InstanceSuffix) then "" else InstanceSuffix;
    SchemeKeepsSuffixTest(s);
    if StartsWith(s, "http") {
      assert scheme + s == s;
    }
    assert NormalizeInstance(raw) == scheme + s + tail;
    SliceOfLeft(scheme + s, tail, |scheme|, |scheme| + |s|);
    SliceOfRight(scheme, s, 0, |s|);
  }

  /** Normalising a normalised URL changes nothing. */
  lemma NormalizeInstanceIdempotent(raw: string)
    ensures NormalizeInstance(NormalizeInstance(raw)) == NormalizeInstance(raw)
  {
    var url := NormalizeInstance(raw);
    assert url[0] == 'h';
    assert url[|url| - 1] == 'm';
    StripTrimmed(url);
  }

  /** The callback port: empty input, input `int()` rejects, and numbers
      outside 1024..65535 all give 8080; anything else is the number typed. */
  function ParsePort(raw: string): (port: int)
    ensures 1024 <= port <= 65535
    ensures Strip(raw) == "" ==> port == DefaultPort
    ensures port != DefaultPort ==> ParseInt(Strip(raw)) == Some(port)
    ensures (ParseInt(Strip(raw)).Some? && 1024 <= ParseInt(Strip(raw)).value <= 65535)
              ==> port == ParseInt(Strip(raw)).value
  {
    var s := Strip(raw);
    if s == "" then DefaultPort
    else
      match ParseInt(s)
      case None => DefaultPort
      case Some(p) => if p < 1024 || p > 65535 then DefaultPort else p
  }

  /** Typing a valid port's decimal form gives that port back. */
  lemma ParsePortRoundTrip(p: int)
    requires 1024 <= p <= 65535
    ensures ParsePort(IntToString(p)) == p
  {
    var s := IntToString(p);
    assert !IsSpace(s[0]) && !IsSpace(s[|s| - 1]);
    StripTrimmed(s);
    IntToStringRoundTrip(p);
  }

  // ---------------------------------------------------------------------------
  // Reading one validated org entry in the batch loop
  // ---------------------------------------------------------------------------

  /** The settings the batch loop reads from one org entry. `cleanupType` is
      `None` when the key is absent (the script's `org_config['cleanup_type']`
      then raises, after authentication); `flowNames` is the raw value of
      `org_config.get('flow_names', [])`. */
  datatype OrgTarget = OrgTarget(
    instance: string,
    clientId: string,
    clientSecret: string,
    callbackPort: int,
    skipProductionCheck: bool,
    autoConfirmProduction: bool,
    cleanupType: Option<JValue>,
    flowNames: JValue)

  /** A string-valued setting as Python's `if value:` sees it: a string as
      is, any false value as the empty string, `None` for a true non-string. */
  function StringSetting(v: JValue): Option<string> {
    if v.JStr? then Some(v.s)
    else if !Truthy(v) then Some("")
    else None
  }

  function Get(org: OrgDoc, key: string, default: JValue): JValue {
    if key in org then org[key] else default
  }

  /** Reading an org entry before authenticating: `instance`, `client_id` and
      `client_secret` are indexed (a missing one raises `KeyError`), the port
      and the two flags use `.get` with their defaults. `None` stands for the
      exception the script's `except Exception` turns into a failed org. */
  function ReadOrg(org: OrgDoc): (t: Option<OrgTarget>)
    requires "instance" in org
    ensures t.Some? ==> "client_id" in org && "client_secret" in org && org["instance"] == JStr(t.value.instance)
    ensures t.Some? ==> t.value.skipProductionCheck == Truthy(Get(org, "skip_production_check", JBool(false)))
    ensures t.Some? ==> t.value.autoConfirmProduction == Truthy(Get(org, "auto_confirm_production", JBool(false)))
    ensures t.Some? ==> ("cleanup_type" in org <==> t.value.cleanupType.Some?)
    ensures t.Some? && "cleanup_type" in org ==> t.value.cleanupType == Some(org["cleanup_type"])
    ensures t.Some? ==> "client_id" in org && StringSetting(org["client_id"]) == Some(t.value.clientId)
    ensures t.Some? ==> "client_secret" in org && StringSetting(org["client_secret"]) == Some(t.value.clientSecret)
    ensures t.Some? ==> Get(org, "callback_port", JNum(DefaultPort)) == JNum(t.value.callbackPort)
    ensures t.Some? ==> t.value.flowNames == Get(org, "flow_names", JArr([]))
    ensures t.Some? <==>
              && "client_id" in org && "client_secret" in org && org["instance"].JStr?
              && StringSetting(org["client_id"]).Some?
              && StringSetting(org["client_secret"]).Some?
              && Get(org, "callback_port", JNum(DefaultPort)).JNum?
    ensures "client_id" !in org || "client_secret" !in org ==> t.None?
  {
    if "client_id" !in org || "client_secret" !in org || !org["instance"].JStr? then None
    else
      var id := StringSetting(org["client_id"]);
      var secret := StringSetting(org["client_secret"]);
      var port := Get(org, "callback_port", JNum(DefaultPort));
      if id.None? || secret.None? || !port.JNum? then None
      else
        Some(OrgTarget(
          org["instance"].s,
          id.value,
          secret.value,
          port.n,
          Truthy(Get(org, "skip_production_check", JBool(false))),
          Truthy(Get(org, "auto_confirm_production", JBool(false))),
          if "cleanup_type" in org then Some(org["cleanup_type"]) else None,
          Get(org, "flow_names", JArr([]))))
  }

  /** Defaults filled by loading reach the batch loop unchanged: a loaded org
      with only the required keys authenticates on port 8080 with no secret,
      runs the production check, and cleans up all old versions. */
  lemma MinimalOrgReadsDefaults(instance: string, clientId: string)
    requires clientId != ""
    ensures ReadOrg(WithDefaults(map["instance" := JStr(instance), "client_id" := JStr(clientId)]))
         == Some(OrgTarget(instance, clientId, "", DefaultPort, false, false, Some(JStr("1")), JArr([])))
  {
  }
}

=== FILE: oauth.dfy ===
/** The decision and parameter parts of `authenticate`: which credentials are
    used, the authorize parameters, the verdict read from the listener after
    the wait, and the token request. Random PKCE values, the browser, the
    HTTP server thread and the token POST are oracle inputs. */
module OAuth {
  import opened Wrappers
  import opened Strings
  import opened Callback

  type Param = (string, string)

  /** The value stored under `key` in a parameter dictionary. */
  function Lookup(ps: seq<Param>, key: string): Option<string> {
    if |ps| == 0 then None
    else if ps[0].0 == key then Some(ps[0].1)
    else Lookup(ps[1..], key)
  }

  lemma {:induction false} LookupAt(ps: seq<Param>, i: nat, key: string)
    requires i < |ps| && ps[i].0 == key
    requires forall j :: 0 <= j < i ==> ps[j].0 != key
    ensures Lookup(ps, key) == Some(ps[i].1)
  {
    if i > 0 {
      LookupAt(ps[1..], i - 1, key);
    }
  }

  lemma {:induction false} LookupAbsent(ps: seq<Param>, key: string)
    requires forall j :: 0 <= j < |ps| ==> ps[j].0 != key
    ensures Lookup(ps, key) == None
  {
    if |ps| > 0 {
      LookupAbsent(ps[1..], key);
    }
  }

  /** `f"http://localhost:{port}/callback"`. */
  function RedirectUri(port: int): string {
    "http://localhost:" + IntToString(port) + "/callback"
  }

  /** A parameter list read as a Python dict: no key listed twice. */
  predicate DistinctKeys(ps: seq<Param>) {
    forall i, j :: 0 <= i < j < |ps| ==> ps[i].0 != ps[j].0
  }

  /** The authorize request's query parameters, in the script's order: the
      authorization-code grant with the PKCE challenge and method `S256`,
      the client id, the local redirect URI and the requested scope. */
  function AuthorizeParams(clientId: string, port: int, codeChallenge: string): (ps: seq<Param>)
    ensures DistinctKeys(ps)
    ensures Lookup(ps, "response_type") == Some("code")
    ensures Lookup(ps, "client_id") == Some(clientId)
    ensures Lookup(ps, "redirect_uri") == Some(RedirectUri(port))
    ensures Lookup(ps, "scope") == Some("api refresh_token")
    ensures Lookup(ps, "code_challenge") == Some(codeChallenge)
    ensures Lookup(ps, "code_challenge_method") == Some("S256")
  {
    var ps := [ ("response_type", "code"),
                ("client_id", clientId),
                ("redirect_uri", RedirectUri(port)),
                ("scope", "api refresh_token"),
                ("code_challenge", codeChallenge),
                ("code_challenge_method", "S256") ];
    LookupAt(ps, 0, "response_type");
    LookupAt(ps, 1, "client_id");
    LookupAt(ps, 2, "redirect_uri");
    LookupAt(ps, 3, "scope");
    LookupAt(ps, 4, "code_challenge");
    LookupAt(ps, 5, "code_challenge_method");
    ps
  }

  /** The token-exchange form body: the authorization-code grant with the
      client id, redirect URI, received code and PKCE verifier, and
      `client_secret` only when it is non-empty. */
  function TokenBody(clientId: string, clientSecret: string, port: int, code: string, codeVerifier: string)
    : (ps: seq<Param>)
    ensures DistinctKeys(ps)
    ensures Lookup(ps, "grant_type") == Some("authorization_code")
    ensures Lookup(ps, "client_id") == Some(clientId)
    ensures Lookup(ps, "redirect_uri") == Some(RedirectUri(port))
    ensures Lookup(ps, "code") == Some(code)
    ensures Lookup(ps, "code_verifier") == Some(codeVerifier)
    ensures Lookup(ps, "client_secret") == if clientSecret != "" then Some(clientSecret) else None
  {
    var ps := [ ("grant_type", "authorization_code"),
                ("client_id", clientId),
                ("redirect_uri", RedirectUri(port)),
                ("code", code),
                ("code_verifier", codeVerifier) ]
              + (if clientSecret != "" then [("client_secret", clientSecret)] else []);
    LookupAt(ps, 0, "grant_type");
    LookupAt(ps, 1, "client_id");
    LookupAt(ps, 2, "redirect_uri");
    LookupAt(ps, 3, "code");
    LookupAt(ps, 4, "code_verifier");
    if clientSecret != "" then
      LookupAt(ps, 5, "client_secret");
      ps
    else
      LookupAbsent(ps, "client_secret");
      ps
  }

  /** What the wait loop's exit leaves the authenticator with. */
  datatype WaitVerdict = CodeReceived(code: string) | CallbackFailed(message: string) | NoCallback

  /** `if server.auth_error: ... if server.auth_code is None: ...`: a stored
      (non-empty) error decides failure before the code is even looked at. */
  function Verdict(st: ListenerState): (v: WaitVerdict)
    ensures v.CallbackFailed? <==> st.authError.Some? && st.authError.value != ""
    ensures v.NoCallback? <==> (st.authError.None? || st.authError.value == "") && st.authCode.None?
    ensures v.CodeReceived? ==> st.authCode == Some(v.code)
  {
    if st.authError.Some? && st.authError.value != "" then CallbackFailed(st.authError.value)
    else if st.authCode.None? then NoCallback
    else CodeReceived(st.authCode.value)
  }

  /** After any sequence of redirects: an error-bearing hit anywhere makes
      the attempt fail even if a code arrived too, and otherwise it proceeds
      exactly when some hit carried a code, with the last such code. */
  lemma WaitOutcome(reqs: seq<CallbackRequest>)
    ensures Verdict(Snapshot(reqs)).CallbackFailed? <==> LastError(reqs).Some?
    ensures Verdict(Snapshot(reqs)).CodeReceived? <==> LastError(reqs).None? && LastCode(reqs).Some?
    ensures Verdict(Snapshot(reqs)).CodeReceived? ==> Verdict(Snapshot(reqs)).code == LastCode(reqs).value
  {
    SnapshotIsLastWrite(reqs);
  }

  // ---------------------------------------------------------------------------
  // One authentication attempt
  // ---------------------------------------------------------------------------

  /** Creating `HTTPServer(('localhost', port), ...)`. */
  datatype BindOutcome =
    | Bound
    | AddressInUse       // OSError with errno 48
    | OtherOsError       // any other OSError
    | OtherException     // anything else, which escapes `authenticate`

  /** The token POST: a `RequestException` (transport failure or non-2xx), or
      a decoded JSON body that may lack `access_token`. */
  datatype TokenReply = TokenRequestFailed | TokenJson(accessToken: Option<string>)

  /** Everything outside the script's own logic that one attempt depends on. */
  datatype AuthOracle = AuthOracle(
    promptedClientId: string,       // line typed at the client-id prompt, when asked
    promptedClientSecret: string,   // line typed at the client-secret prompt, when asked
    bind: BindOutcome,
    codeVerifier: string,           // PKCE values; their generation is not modelled
    codeChallenge: string,
    callbacks: seq<CallbackRequest>, // requests served before the state is read
    token: TokenReply)

  datatype AuthFailure =
    | NoClientId
    | PortInUse
    | ListenerStartFailed
    | OAuthError(message: string)
    | TimedOutOrCancelled
    | TokenExchangeFailed
    | MalformedTokenResponse

  datatype AuthOutcome = Authenticated(accessToken: string) | AuthFailed(reason: AuthFailure) | AuthRaised

  datatype AuthorizationRequest = AuthorizationRequest(endpoint: string, params: seq<Param>)

  datatype TokenRequest = TokenRequest(endpoint: string, body: seq<Param>)

  datatype AuthAttempt = AuthAttempt(
    outcome: AuthOutcome,
    authorization: Option<AuthorizationRequest>,
    tokenRequest: Option<TokenRequest>)

  /** The credentials used: the configured ones, or, when no client id is
      configured, the stripped answers to the two prompts (the secret prompt
      is only reached with a non-empty id). */
  function Credentials(clientId: string, clientSecret: string, o: AuthOracle): (c: (string, string))
    ensures clientId != "" ==> c == (clientId, clientSecret)
    ensures clientId == "" ==> c.0 == Strip(o.promptedClientId)
    ensures c.0 == "" ==> c.1 == ""
    ensures clientId == "" && c.0 != "" ==> c.1 == Strip(o.promptedClientSecret)
  {
    if clientId != "" then (clientId, clientSecret)
    else
      var id := Strip(o.promptedClientId);
      if id == "" then ("", "") else (id, Strip(o.promptedClientSecret))
  }

  /** `authenticate(instance_url, client_id, client_secret, port=port)`. */
  function Authenticate(instanceUrl: string, clientId: string, clientSecret: string, port: int, o: AuthOracle)
    : (a: AuthAttempt)
    ensures a.outcome.Authenticated? <==>
              && Credentials(clientId, clientSecret, o).0 != ""
              && o.bind.Bound?
              && Verdict(Snapshot(o.callbacks)).CodeReceived?
              && o.token.TokenJson? && o.token.accessToken.Some?
    ensures a.outcome.Authenticated? ==> o.token == TokenJson(Some(a.outcome.accessToken))
    ensures a.outcome.AuthRaised? <==> Credentials(clientId, clientSecret, o).0 != "" && o.bind.OtherException?
    ensures (Credentials(clientId, clientSecret, o).0 != "" && o.bind.Bound? && Snapshot(o.callbacks).authError.Some?)
              ==> a.outcome == AuthFailed(OAuthError(Snapshot(o.callbacks).authError.value))
    ensures a.authorization.Some? <==> Credentials(clientId, clientSecret, o).0 != "" && o.bind.Bound?
    ensures a.authorization.Some? ==>
              a.authorization.value.endpoint == instanceUrl + "/services/oauth2/authorize"
    ensures Credentials(clientId, clientSecret, o).0 == "" ==> a.outcome == AuthFailed(NoClientId)
    ensures Credentials(clientId, clientSecret, o).0 != "" && o.bind.AddressInUse? ==> a.outcome == AuthFailed(PortInUse)
    ensures Credentials(clientId, clientSecret, o).0 != "" && o.bind.OtherOsError? ==> a.outcome == AuthFailed(ListenerStartFailed)
    ensures Credentials(clientId, clientSecret, o).0 != "" && o.bind.Bound? && Verdict(Snapshot(o.callbacks)).NoCallback? ==>
              a.outcome == AuthFailed(TimedOutOrCancelled)
    ensures Credentials(clientId, clientSecret, o).0 != "" && o.bind.Bound? && Verdict(Snapshot(o.callbacks)).CodeReceived? ==>
              a.outcome == match o.token
                           case TokenRequestFailed => AuthFailed(TokenExchangeFailed)
                           case TokenJson(None) => AuthFailed(MalformedTokenResponse)
                           case TokenJson(Some(t)) => Authenticated(t)
    ensures a.authorization.Some? ==>
              a.authorization.value.params == AuthorizeParams(Credentials(clientId, clientSecret, o).0, port, o.codeChallenge)
    ensures a.tokenRequest.Some? ==>
              && Snapshot(o.callbacks).authCode.Some?
              && a.tokenRequest.value.body
                 == TokenBody(Credentials(clientId, clientSecret, o).0, Credentials(clientId, clientSecret, o).1,
                              port, Snapshot(o.callbacks).authCode.value, o.codeVerifier)
    ensures a.authorization.Some? ==>
              && Lookup(a.authorization.value.params, "client_id") == Some(Credentials(clientId, clientSecret, o).0)
              && Lookup(a.authorization.value.params, "redirect_uri") == Some(RedirectUri(port))
              && Lookup(a.authorization.value.params, "response_type") == Some("code")
              && Lookup(a.authorization.value.params, "code_challenge") == Some(o.codeChallenge)
              && Lookup(a.authorization.value.params, "code_challenge_method") == Some("S256")
    ensures a.tokenRequest.Some? <==>
              && Credentials(clientId, clientSecret, o).0 != ""
              && o.bind.Bound?
              && Verdict(Snapshot(o.callbacks)).CodeReceived?
    ensures a.tokenRequest.Some? ==>
              && a.authorization.Some?
              && Lookup(a.tokenRequest.value.body, "client_id")
                 == Lookup(a.authorization.value.params, "client_id")
                 == Some(Credentials(clientId, clientSecret, o).0)
              && a.tokenRequest.value.endpoint == instanceUrl + "/services/oauth2/token"
              && Lookup(a.tokenRequest.value.body, "redirect_uri")
                 == Lookup(a.authorization.value.params, "redirect_uri")
              && Lookup(a.tokenRequest.value.body, "code") == Snapshot(o.callbacks).authCode
              && Lookup(a.tokenRequest.value.body, "code_verifier") == Some(o.codeVerifier)
              && Lookup(a.authorization.value.params, "code_challenge") == Some(o.codeChallenge)
              && (Lookup(a.tokenRequest.value.body, "client_secret").Some?
                  <==> Credentials(clientId, clientSecret, o).1 != "")
  {
    var (id, secret) := Credentials(clientId, clientSecret, o);
    if id == "" then AuthAttempt(AuthFailed(NoClientId), None, None)
    else
      match o.bind
      case AddressInUse => AuthAttempt(AuthFailed(PortInUse), None, None)
      case OtherOsError => AuthAttempt(AuthFailed(ListenerStartFailed), None, None)
      case OtherException => AuthAttempt(AuthRaised, None, None)
      case Bound =>
        var params := AuthorizeParams(id, port, o.codeChallenge);
        var authz := Some(AuthorizationRequest(instanceUrl + "/services/oauth2/authorize", params));
        match Verdict(Snapshot(o.callbacks))
        case CallbackFailed(m) => AuthAttempt(AuthFailed(OAuthError(m)), authz, None)
        case NoCallback => AuthAttempt(AuthFailed(TimedOutOrCancelled), authz, None)
        case CodeReceived(code) =>
          var body := TokenBody(id, secret, port, code, o.codeVerifier);
          var tokenReq := Some(TokenRequest(instanceUrl + "/services/oauth2/token", body));
          match o.token
          case TokenRequestFailed => AuthAttempt(AuthFailed(TokenExchangeFailed), authz, tokenReq)
          case TokenJson(None) => AuthAttempt(AuthFailed(MalformedTokenResponse), authz, tokenReq)
          case TokenJson(Some(t)) => AuthAttempt(Authenticated(t), authz, tokenReq)
  }
}

=== FILE: orchestrator.dfy ===
/** The batch loop (`run_batch_cleanup`) and the per-org cleanup it drives
    (`check_if_production`, `run_cleanup`). Everything outside the script's
    own logic that one org depends on (the OAuth exchange, the replies of the
    org-info query, the Flow query and the composite deletes, the line typed
    at the DELETE prompt) is an oracle value, and each org gets its own. */
module Orchestrator {
  import opened Wrappers
  import opened Json
  import opened Strings
  import opened Retention
  import opened BulkDelete
  import opened OAuth
  import opened Config
  import opened Queries

  // ---------------------------------------------------------------------------
  // Production check
  // ---------------------------------------------------------------------------

  /** One `Organization` row; only `IsSandbox` is read, and it may be absent. */
  datatype OrgInfoRecord = OrgInfoRecord(isSandbox: Option<JValue>)

  /** The reply to the `Organization` query: a `RequestException`, or a decoded
      body whose `records` may be missing. */
  datatype OrgInfoReply = OrgInfoFailed | OrgInfoOk(records: Option<seq<OrgInfoRecord>>)

  /** What `check_if_production` ends in. `CheckRaised` is the `IndexError`
      of an empty `records` list, which is not a `RequestException` and so
      escapes the method. */
  datatype InstanceKind = Production | Sandbox | CheckRaised

  /** The flag of the first row, `True` when the row or the flag is missing. */
  function SandboxFlag(records: Option<seq<OrgInfoRecord>>): JValue
    requires records != Some([])
  {
    match records
    case None => JBool(true)
    case Some(rs) => rs[0].isSandbox.GetOr(JBool(true))
  }

  /** `check_if_production`: an org is treated as production when the query
      fails or when the flag it reads is false; it is a sandbox when the flag
      is true or missing; an empty row list raises. */
  function CheckIfProduction(reply: OrgInfoReply): (k: InstanceKind)
    ensures k == CheckRaised <==> reply == OrgInfoOk(Some([]))
    ensures k == Production <==>
              || reply.OrgInfoFailed?
              || (reply.records != Some([]) && !Truthy(SandboxFlag(reply.records)))
  {
    match reply
    case OrgInfoFailed => Production
    case OrgInfoOk(records) =>
      if records == Some([]) then CheckRaised
      else if Truthy(SandboxFlag(records)) then Sandbox
      else Production
  }

  /** Only an explicit false-valued `IsSandbox` (false, null, 0, "" ...) or a
      failed query makes an org production: an answer without the flag, or
      without rows, is a sandbox. */
  lemma MissingSandboxFlagMeansSandbox(rs: seq<OrgInfoRecord>)
    requires |rs| > 0 && rs[0].isSandbox.None?
    ensures CheckIfProduction(OrgInfoOk(Some(rs))) == Sandbox
    ensures CheckIfProduction(OrgInfoOk(None)) == Sandbox
    ensures CheckIfProduction(OrgInfoFailed) == Production
  {
  }

  // ---------------------------------------------------------------------------
  // One org's cleanup
  // ---------------------------------------------------------------------------

  /** Where an exception the model does not derive is raised (a record
      lacking a field, a decode error, the deletion list failing to save):
      on entering that stage, before any of its effects. */
  datatype Stage = Settings | Authentication | ProductionCheck | Cleanup

  /** Everything outside the script that one org's processing depends on. */
  datatype OrgOracle = OrgOracle(
    auth: AuthOracle,
    orgInfo: OrgInfoReply,
    query: QueryReply,
    confirmation: string,       // the line typed at the DELETE prompt
    post: nat -> PostReply,     // the reply to the composite request of batch k
    raisesIn: Option<Stage>)

  /** How `run_cleanup` ends. */
  datatype Decision =
    | NothingToDelete           // the plan is empty: nothing is asked or sent
    | Cancelled                 // anything but DELETE was typed
    | Deleted(run: DeleteRun)   // the bulk delete ran; its result is ignored

  datatype CleanupReport = CleanupReport(query: Option<string>, plan: seq<FlowVersion>, decision: Decision)

  /** `flow_names` as the specific-flow query iterates it: a list of strings,
      or a single string taken character by character. Anything else makes
      the `', '.join` in the query method raise. */
  function FlowNameList(v: JValue): (names: Option<seq<string>>)
    ensures v.JStr? ==> names.Some? && |names.value| == |v.s|
                        && forall i :: 0 <= i < |v.s| ==> names.value[i] == [v.s[i]]
    ensures v.JArr? ==> (names.Some? <==> forall i :: 0 <= i < |v.items| ==> v.items[i].JStr?)
    ensures names.Some? && v.JArr? ==>
              |names.value| == |v.items| && forall i :: 0 <= i < |v.items| ==> v.items[i] == JStr(names.value[i])
    ensures !v.JStr? && !v.JArr? ==> names.None?
  {
    match v
    case JStr(s) => Some(seq(|s|, i requires 0 <= i < |s| => [s[i]]))
    case JArr(items) =>
      if forall i :: 0 <= i < |items| ==> items[i].JStr? then
        Some(seq(|items|, i requires 0 <= i < |items| => items[i].s))
      else None
    case _ => None
  }

  /** The Flow ids of a plan, in plan order. */
  function Ids(plan: seq<FlowVersion>): (ids: seq<string>)
    ensures |ids| == |plan|
    ensures forall i :: 0 <= i < |plan| ==> ids[i] == plan[i].id
  {
    seq(|plan|, i requires 0 <= i < |plan| => plan[i].id)
  }

  /** `run_cleanup`. Cleanup type `'1'` queries every non-active version,
      `'2'` the named flows; any other value queries nothing. The plan is the
      superseded versions among the rows fetched; when it is non-empty the
      user is asked, and only a stripped `DELETE` sends the plan's ids to the
      bulk delete. */
  function RunCleanup(cleanupType: JValue, flowNames: seq<string>, o: OrgOracle): (rep: CleanupReport)
    ensures cleanupType == JStr("1") ==> rep.query == Some(AllOldQuery)
    ensures cleanupType == JStr("2") ==> rep.query == Some(SpecificQuery(flowNames))
    ensures rep.query.None? <==> cleanupType != JStr("1") && cleanupType != JStr("2")
    ensures rep.query.None? ==> rep.plan == []
    ensures rep.query.Some? ==>
              forall x :: x in rep.plan <==> x in FetchedRecords(o.query) && Superseded(FetchedRecords(o.query), x)
    ensures rep.query.Some? ==> IsSubsequence(rep.plan, FetchedRecords(o.query))
    ensures rep.query.Some? ==>
              forall x :: multiset(rep.plan)[x]
                          == if Superseded(FetchedRecords(o.query), x) then multiset(FetchedRecords(o.query))[x] else 0
    ensures rep.decision.NothingToDelete? <==> rep.plan == []
    ensures rep.decision.Deleted? <==> rep.plan != [] && Strip(o.confirmation) == "DELETE"
    ensures rep.decision.Deleted? ==> rep.decision.run == BulkDeleteFlows(Ids(rep.plan), o.post)
  {
    var query :=
      if cleanupType == JStr("1") then Some(AllOldQuery)
      else if cleanupType == JStr("2") then Some(SpecificQuery(flowNames))
      else None;
    var plan := if query.Some? then QueryPlan(o.query) else [];
    var decision :=
      if plan == [] then NothingToDelete
      else if Strip(o.confirmation) != "DELETE" then Cancelled
      else Deleted(BulkDeleteFlows(Ids(plan), o.post));
    CleanupReport(query, plan, decision)
  }

  /** How one org ends. Only `Cleaned` counts as a success; what the bulk
      delete achieved does not matter to the count. */
  datatype OrgOutcome =
    | NotAuthenticated(reason: AuthFailure)
    | ProductionSkipped
    | Crashed(stage: Stage)
    | Cleaned(isProduction: bool, report: CleanupReport)

  /** The org entry reads, and the stored credentials authenticate, before any
      other stage runs. */
  predicate Authenticates(doc: OrgDoc, o: OrgOracle)
    requires "instance" in doc
  {
    && o.raisesIn != Some(Settings)
    && ReadOrg(doc).Some?
    && o.raisesIn != Some(Authentication)
    && var t := ReadOrg(doc).value;
       Authenticate(t.instance, t.clientId, t.clientSecret, t.callbackPort, o.auth).outcome.Authenticated?
  }

  /** The part of the loop body after the production check: build the
      cleanup input and run it. A missing `cleanup_type` raises `KeyError`,
      and so does an unusable `flow_names` under cleanup type `'2'`. */
  function CleanupStage(t: OrgTarget, isProduction: bool, o: OrgOracle): (r: OrgOutcome)
    ensures r.Cleaned? ==> r.isProduction == isProduction && t.cleanupType.Some?
    ensures r.Cleaned? ==> r.report == RunCleanup(t.cleanupType.value, FlowNameList(t.flowNames).GetOr([]), o)
    ensures !r.Cleaned? ==> r == Crashed(Cleanup)
    ensures r.Cleaned? <==>
              && o.raisesIn != Some(Cleanup)
              && t.cleanupType.Some?
              && (t.cleanupType.value == JStr("2") ==> FlowNameList(t.flowNames).Some?)
  {
    if o.raisesIn == Some(Cleanup) then Crashed(Cleanup)
    else
      match t.cleanupType
      case None => Crashed(Cleanup)
      case Some(ct) =>
        if ct == JStr("2") && FlowNameList(t.flowNames).None? then Crashed(Cleanup)
        else Cleaned(isProduction, RunCleanup(ct, FlowNameList(t.flowNames).GetOr([]), o))
  }

  /** The body of the batch loop for one org, inside its `try`. An org that
      does not authenticate fails without any other request; a production
      org (by the check) is skipped, and counted as failed, unless it opts in
      with `auto_confirm_production`; an org that skips the check is handled
      as a sandbox. */
  function ProcessOrg(doc: OrgDoc, o: OrgOracle): (r: OrgOutcome)
    requires "instance" in doc
    ensures r.NotAuthenticated? ==> !Authenticates(doc, o)
    ensures r.Cleaned? ==> Authenticates(doc, o)
    ensures r.ProductionSkipped? <==>
              && Authenticates(doc, o)
              && !ReadOrg(doc).value.skipProductionCheck
              && o.raisesIn != Some(ProductionCheck)
              && CheckIfProduction(o.orgInfo) == Production
              && !ReadOrg(doc).value.autoConfirmProduction
    ensures r.Cleaned? && r.isProduction ==>
              && !ReadOrg(doc).value.skipProductionCheck
              && ReadOrg(doc).value.autoConfirmProduction
              && CheckIfProduction(o.orgInfo) == Production
    ensures r.Cleaned? && !r.isProduction ==>
              ReadOrg(doc).value.skipProductionCheck || CheckIfProduction(o.orgInfo) == Sandbox
    ensures r.Cleaned? && r.report.decision.Deleted? ==> Strip(o.confirmation) == "DELETE"
    ensures Authenticates(doc, o)
            && (|| ReadOrg(doc).value.skipProductionCheck
                || (o.raisesIn != Some(ProductionCheck) && CheckIfProduction(o.orgInfo) == Sandbox))
            ==> r == CleanupStage(ReadOrg(doc).value, false, o)
    ensures Authenticates(doc, o)
            && !ReadOrg(doc).value.skipProductionCheck
            && o.raisesIn != Some(ProductionCheck)
            && CheckIfProduction(o.orgInfo) == Production
            && ReadOrg(doc).value.autoConfirmProduction
            ==> r == CleanupStage(ReadOrg(doc).value, true, o)
    ensures Authenticates(doc, o)
            && !ReadOrg(doc).value.skipProductionCheck
            && (o.raisesIn == Some(ProductionCheck) || CheckIfProduction(o.orgInfo) == CheckRaised)
            ==> r == Crashed(ProductionCheck)
  {
    if o.raisesIn == Some(Settings) then Crashed(Settings)
    else
      match ReadOrg(doc)
      case None => Crashed(Settings)
      case Some(t) =>
        if o.raisesIn == Some(Authentication) then Crashed(Authentication)
        else
          match Authenticate(t.instance, t.clientId, t.clientSecret, t.callbackPort, o.auth).outcome
          case AuthRaised => Crashed(Authentication)
          case AuthFailed(reason) => NotAuthenticated(reason)
          case Authenticated(_) =>
            if t.skipProductionCheck then CleanupStage(t, false, o)
            else if o.raisesIn == Some(ProductionCheck) then Crashed(ProductionCheck)
            else
              match CheckIfProduction(o.orgInfo)
              case CheckRaised => Crashed(ProductionCheck)
              case Sandbox => CleanupStage(t, false, o)
              case Production =>
                if t.autoConfirmProduction then CleanupStage(t, true, o) else ProductionSkipped
  }

  /** A failed org-info query makes the org production: without the opt-in
      it is skipped, and with it the cleanup runs as production. */
  lemma FailedCheckMeansProduction(doc: OrgDoc, o: OrgOracle)
    requires "instance" in doc && Authenticates(doc, o)
    requires !ReadOrg(doc).value.skipProductionCheck && o.raisesIn.None?
    requires o.orgInfo.OrgInfoFailed?
    ensures !ReadOrg(doc).value.autoConfirmProduction ==> ProcessOrg(doc, o) == ProductionSkipped
    ensures ProcessOrg(doc, o).Cleaned? ==> ProcessOrg(doc, o).isProduction
  {
  }

  /** Whether an org succeeds does not depend on what the composite deletes
      answer: a bulk delete that fails completely still leaves the org
      counted as successful. */
  lemma SuccessIgnoresDeleteReplies(doc: OrgDoc, o: OrgOracle, post: nat -> PostReply)
    requires "instance" in doc
    ensures ProcessOrg(doc, o).Cleaned? <==> ProcessOrg(doc, o.(post := post)).Cleaned?
  {
    var o' := o.(post := post);
    assert Authenticates(doc, o) <==> Authenticates(doc, o');
    if ReadOrg(doc).Some? {
      var t := ReadOrg(doc).value;
      assert CleanupStage(t, false, o).Cleaned? <==> CleanupStage(t, false, o').Cleaned?;
      assert CleanupStage(t, true, o).Cleaned? <==> CleanupStage(t, true, o').Cleaned?;
    }
  }

  // ---------------------------------------------------------------------------
  // The batch loop
  // ---------------------------------------------------------------------------

  /** What one outcome adds to the success count. */
  function Score(out: OrgOutcome): nat {
    if out.Cleaned? then 1 else 0
  }

  /** Reference: how many outcomes are successes. */
  function CountCleaned(outs: seq<OrgOutcome>): nat {
    if |outs| == 0 then 0
    else CountCleaned(outs[..|outs| - 1]) + Score(outs[|outs| - 1])
  }

  /** Every org is processed on its own: org `i`'s outcome depends only on its
      entry and its oracle. */
  function Outcomes(docs: seq<OrgDoc>, oracles: seq<OrgOracle>): (outs: seq<OrgOutcome>)
    requires |oracles| == |docs|
    requires forall i :: 0 <= i < |docs| ==> "instance" in docs[i]
    ensures |outs| == |docs|
    ensures forall i :: 0 <= i < |docs| ==> outs[i] == ProcessOrg(docs[i], oracles[i])
  {
    seq(|docs|, i requires 0 <= i < |docs| && "instance" in docs[i] => ProcessOrg(docs[i], oracles[i]))
  }

  /** `run_batch_cleanup`: each org in turn, an exception in one never
      stopping the others; every org ends up counted exactly once, as a
      success when its cleanup ran and as a failure otherwise. */
  method RunBatchCleanup(docs: seq<OrgDoc>, oracles: seq<OrgOracle>)
    returns (outcomes: seq<OrgOutcome>, successful: nat, failed: nat)
    requires |oracles| == |docs|
    requires forall i :: 0 <= i < |docs| ==> "instance" in docs[i]
    ensures |outcomes| == |docs| && forall i :: 0 <= i < |docs| ==> outcomes[i] == ProcessOrg(docs[i], oracles[i])
    ensures successful == CountCleaned(outcomes)
    ensures successful + failed == |docs|
  {
    outcomes, successful, failed := [], 0, 0;
    var i := 0;
    while i < |docs|
      invariant 0 <= i <= |docs|
      invariant |outcomes| == i
      invariant forall j :: 0 <= j < i ==> outcomes[j] == ProcessOrg(docs[j], oracles[j])
      invariant successful == CountCleaned(outcomes)
      invariant successful + failed == i
    {
      var out := ProcessOrg(docs[i], oracles[i]);
      CountCleanedGrow(outcomes, out);
      outcomes := outcomes + [out];
      successful, failed := successful + Score(out), failed + 1 - Score(out);
      i := i + 1;
    }
  }

  lemma CountCleanedGrow(outs: seq<OrgOutcome>, out: OrgOutcome)
    ensures CountCleaned(outs + [out]) == CountCleaned(outs) + Score(out)
  {
    assert (outs + [out])[..|outs|] == outs;
  }

  /** The summary's "no organizations were processed successfully" is
      printed exactly when no org's cleanup ran: in particular when every
      org was a skipped production org. */
  lemma {:induction false} NoSuccessIffNoCleanup(outs: seq<OrgOutcome>)
    ensures CountCleaned(outs) == 0 <==> forall i :: 0 <= i < |outs| ==> !outs[i].Cleaned?
  {
    if |outs| > 0 {
      var init := outs[..|outs| - 1];
      NoSuccessIffNoCleanup(init);
      assert forall i :: 0 <= i < |init| ==> init[i] == outs[i];
    }
  }

  /** Typing anything but DELETE for every org deletes nothing anywhere,
      `auto_confirm_production` notwithstanding. */
  lemma NothingDeletedWithoutConfirmation(docs: seq<OrgDoc>, oracles: seq<OrgOracle>)
    requires |oracles| == |docs|
    requires forall i :: 0 <= i < |docs| ==> "instance" in docs[i]
    requires forall i :: 0 <= i < |oracles| ==> Strip(oracles[i].confirmation) != "DELETE"
    ensures forall i :: 0 <= i < |docs| ==>
              !(Outcomes(docs, oracles)[i].Cleaned? && Outcomes(docs, oracles)[i].report.decision.Deleted?)
  {
  }
}

=== FILE: queries.dfy ===
/** The Tooling API queries behind `query_old_flow_versions` and
    `query_specific_flows`, and what each makes of the reply: the records are
    fetched with Active versions excluded by the query text, then reduced to
    the deletion plan. */
module Queries {
  import opened Wrappers
  import opened Strings
  import opened Retention

  const FlowSelect: string :=
    "SELECT Id, MasterLabel, VersionNumber, Status, DefinitionId, Definition.DeveloperName, Definition.MasterLabel FROM Flow WHERE "

  /** The shared tail of both queries: no Active versions, ordered by flow
      name and then newest version first. */
  const NonActiveOrdered: string :=
    "Status != 'Active' ORDER BY Definition.DeveloperName, VersionNumber DESC"

  /** The query for cleanup type 1. */
  const AllOldQuery: string := FlowSelect + NonActiveOrdered

  /** `f"Definition.DeveloperName = '{name}'"`; the name is inserted as is. */
  function NameCondition(name: string): string {
    "Definition.DeveloperName = '" + name + "'"
  }

  function NameConditions(names: seq<string>): (cs: seq<string>)
    ensures |cs| == |names|
    ensures forall i :: 0 <= i < |names| ==> cs[i] == NameCondition(names[i])
  {
    if |names| == 0 then [] else [NameCondition(names[0])] + NameConditions(names[1..])
  }

  const ConditionsOpen: string := FlowSelect + "("
  const ConditionsClose: string := ") AND " + NonActiveOrdered

  /** The query for cleanup type 2: the name conditions joined with `" OR "`
      in parentheses, then the shared tail. */
  function SpecificQuery(names: seq<string>): (q: string)
    ensures StartsWith(q, ConditionsOpen) && EndsWith(q, ConditionsClose)
    ensures |q| == |ConditionsOpen| + |Join(" OR ", NameConditions(names))| + |ConditionsClose|
  {
    Around(ConditionsOpen, Join(" OR ", NameConditions(names)), ConditionsClose);
    ConditionsOpen + Join(" OR ", NameConditions(names)) + ConditionsClose
  }

  /** Both queries select Flow rows and exclude Active versions, which is
      what the retention filter relies on instead of checking `Status`. */
  lemma QueriesExcludeActive(names: seq<string>)
    ensures StartsWith(AllOldQuery, FlowSelect) && EndsWith(AllOldQuery, NonActiveOrdered)
    ensures StartsWith(SpecificQuery(names), FlowSelect) && EndsWith(SpecificQuery(names), NonActiveOrdered)
  {
    Enclosed(FlowSelect, "", "", "", NonActiveOrdered);
    assert AllOldQuery == FlowSelect + "" + "" + ("" + NonActiveOrdered);
    Enclosed(FlowSelect, "(", Join(" OR ", NameConditions(names)), ") AND ", NonActiveOrdered);
  }

  /** Text put between a prefix and a suffix keeps both; split in five so that
      it matches the shape of the two queries term for term. */
  lemma Enclosed(a: string, b: string, c: string, d: string, e: string)
    ensures StartsWith(a + b + c + (d + e), a) && EndsWith(a + b + c + (d + e), e)
  {
    Around(a, b + c + d, e);
    assert a + b + c + (d + e) == a + (b + c + d) + e;
  }

  /** The specific-names query names every requested flow, in order: the
      condition for name `i` sits right after the opening parenthesis plus
      the earlier conditions and their `" OR "` separators. */
  lemma SpecificQueryNamesEachFlow(names: seq<string>, i: nat)
    requires i < |names|
    ensures OccursAt(SpecificQuery(names), NameConditions(names)[i],
                     |ConditionsOpen| + PartOffset(" OR ", NameConditions(names), i))
  {
    PartInJoined(ConditionsOpen, " OR ", NameConditions(names), ConditionsClose, i);
  }

  /** An `" OR "` follows the condition of every requested flow but the last. */
  lemma SpecificQueryJoinsWithOr(names: seq<string>, i: nat)
    requires i + 1 < |names|
    ensures OccursAt(SpecificQuery(names), " OR ",
                     |ConditionsOpen| + PartOffset(" OR ", NameConditions(names), i) + |NameConditions(names)[i]|)
  {
    SeparatorInJoined(ConditionsOpen, " OR ", NameConditions(names), ConditionsClose, i);
  }

  /** A part of a joined list keeps its offset when text is put around the
      list. */
  lemma PartInJoined(head: string, sep: string, parts: seq<string>, tail: string, i: nat)
    requires i < |parts|
    ensures OccursAt(head + Join(sep, parts) + tail, parts[i], |head| + PartOffset(sep, parts, i))
  {
    JoinLayout(sep, parts, i);
    OccursInMiddle(head, Join(sep, parts), tail, parts[i], PartOffset(sep, parts, i));
  }

  /** So does the separator after each part but the last. */
  lemma SeparatorInJoined(head: string, sep: string, parts: seq<string>, tail: string, i: nat)
    requires i + 1 < |parts|
    ensures OccursAt(head + Join(sep, parts) + tail, sep, |head| + PartOffset(sep, parts, i) + |parts[i]|)
  {
    JoinSeparator(sep, parts, i);
    OccursInMiddle(head, Join(sep, parts), tail, sep, PartOffset(sep, parts, i) + |parts[i]|);
  }

  /** The reply to a query GET: a `RequestException`, or a decoded body whose
      `records` may be missing. */
  datatype QueryReply = QueryFailed | QueryOk(records: Option<seq<FlowVersion>>)

  /** The rows a query method works on: `result.get('records', [])`, and an
      empty list when the request failed (the method prints the error and
      returns `[]`). */
  function FetchedRecords(reply: QueryReply): seq<FlowVersion> {
    match reply
    case QueryFailed => []
    case QueryOk(records) => records.GetOr([])
  }

  /** What a query method returns: the deletion plan of the fetched rows. A
      failed query and an empty result are indistinguishable to the caller. */
  function QueryPlan(reply: QueryReply): (plan: seq<FlowVersion>)
    ensures reply.QueryFailed? ==> plan == []
    ensures forall x :: x in plan <==> x in FetchedRecords(reply) && Superseded(FetchedRecords(reply), x)
    ensures IsSubsequence(plan, FetchedRecords(reply))
    ensures forall x :: multiset(plan)[x]
                        == if Superseded(FetchedRecords(reply), x) then multiset(FetchedRecords(reply))[x] else 0
  {
    var rs := FetchedRecords(reply);
    forall x
      ensures x in Deletable(rs) <==> x in rs && Superseded(rs, x)
      ensures multiset(Deletable(rs))[x] == if Superseded(rs, x) then multiset(rs)[x] else 0
    {
      DeletableMembership(rs, x);
      DeletableMultiplicity(rs, x);
    }
    DeletableIsSubsequence(rs);
    Deletable(rs)
  }
}

=== FILE: retention.dfy ===
/** The version-retention filter: out of the non-Active Flow versions a query
    returned, which ones are old enough to delete. A version is deletable
    exactly when some other returned version of the same Flow definition has
    a strictly greater version number; the highest-numbered returned version
    of each definition is always kept. */
module Retention {

  /** One row of the Tooling API `Flow` query: `Id`, `DefinitionId`,
      `VersionNumber`, `Status`, `Definition.DeveloperName` and
      `Definition.MasterLabel`. */
  datatype FlowVersion = FlowVersion(
    id: string,
    definitionId: string,
    versionNumber: int,
    status: string,
    developerName: string,
    masterLabel: string)

  /** `r` is superseded within `rs`: a version of the same definition with a
      strictly greater number is present. */
  predicate Superseded(rs: seq<FlowVersion>, r: FlowVersion) {
    exists j :: 0 <= j < |rs| && rs[j].definitionId == r.definitionId && rs[j].versionNumber > r.versionNumber
  }

  /** The elements of `xs` that are superseded within `all`, in the order of `xs`. */
  function SupersededIn(xs: seq<FlowVersion>, all: seq<FlowVersion>): seq<FlowVersion> {
    if |xs| == 0 then []
    else
      var last := xs[|xs| - 1];
      SupersededIn(xs[..|xs| - 1], all) + (if Superseded(all, last) then [last] else [])
  }

  /** Reference definition of the deletion plan: every returned version that
      is superseded by another returned version of its definition. */
  function Deletable(rs: seq<FlowVersion>): seq<FlowVersion> {
    SupersededIn(rs, rs)
  }

  /** `a` occurs in `b` in order, possibly with gaps. */
  predicate IsSubsequence<T(==)>(a: seq<T>, b: seq<T>)
    decreases |b|
  {
    || |a| == 0
    || (&& |b| > 0
        && (|| (a[|a| - 1] == b[|b| - 1] && IsSubsequence(a[..|a| - 1], b[..|b| - 1]))
            || IsSubsequence(a, b[..|b| - 1])))
  }

  // ---------------------------------------------------------------------------
  // The script's two passes
  // ---------------------------------------------------------------------------

  /** The first pass: walking the records in order, remember for each
      definition the greatest version number seen so far. */
  function LatestVersions(rs: seq<FlowVersion>): map<string, int> {
    if |rs| == 0 then map[]
    else Remember(LatestVersions(rs[..|rs| - 1]), rs[|rs| - 1])
  }

  /** The first pass maps exactly the definitions present to their maximum
      version: every record is at or below its definition's entry, and every
      entry is some record's version. */
  lemma {:induction false} LatestVersionsSound(rs: seq<FlowVersion>)
    ensures forall i :: 0 <= i < |rs| ==>
              rs[i].definitionId in LatestVersions(rs)
              && rs[i].versionNumber <= LatestVersions(rs)[rs[i].definitionId]
    ensures forall d :: d in LatestVersions(rs) ==>
              exists i :: 0 <= i < |rs| && rs[i].definitionId == d && rs[i].versionNumber == LatestVersions(rs)[d]
  {
    if |rs| > 0 {
      var init := rs[..|rs| - 1];
      LatestVersionsSound(init);
      assert forall i :: 0 <= i < |init| ==> rs[i] == init[i];
      var prev := LatestVersions(init);
      var latest := LatestVersions(rs);
      assert latest == Remember(prev, rs[|rs| - 1]);
      forall d | d in latest
        ensures exists i :: 0 <= i < |rs| && rs[i].definitionId == d && rs[i].versionNumber == latest[d]
      {
        if d == rs[|rs| - 1].definitionId && latest[d] == rs[|rs| - 1].versionNumber {
        } else {
          assert d in prev && latest[d] == prev[d];
          var i :| 0 <= i < |init| && init[i].definitionId == d && init[i].versionNumber == prev[d];
          assert rs[i] == init[i];
        }
      }
    }
  }

  /** One step of the first pass: record `r`'s version if its definition is
      new or the version beats the one remembered. */
  function Remember(latest: map<string, int>, r: FlowVersion): map<string, int> {
    if r.definitionId !in latest || r.versionNumber > latest[r.definitionId] then
      latest[r.definitionId := r.versionNumber]
    else latest
  }

  lemma LatestVersionsStep(rs: seq<FlowVersion>, i: nat)
    requires i < |rs|
    ensures LatestVersions(rs[..i + 1]) == Remember(LatestVersions(rs[..i]), rs[i])
  {
    assert rs[..i + 1][..i] == rs[..i];
  }

  /** Why the second pass is right: for a returned record, being below its
      definition's latest version is the same as being superseded. */
  lemma SupersededIffBelowLatest(rs: seq<FlowVersion>, i: nat)
    requires i < |rs|
    ensures rs[i].definitionId in LatestVersions(rs)
    ensures Superseded(rs, rs[i]) <==> rs[i].versionNumber < LatestVersions(rs)[rs[i].definitionId]
  {
    LatestVersionsSound(rs);
    var latest := LatestVersions(rs);
    var d := rs[i].definitionId;
    if rs[i].versionNumber < latest[d] {
      var j :| 0 <= j < |rs| && rs[j].definitionId == d && rs[j].versionNumber == latest[d];
      assert Superseded(rs, rs[i]);
    }
  }

  /** The first pass of the script: the latest version of each definition. */
  method FindLatestVersions(records: seq<FlowVersion>) returns (latest: map<string, int>)
    ensures latest == LatestVersions(records)
  {
    latest := map[];
    var i := 0;
    while i < |records|
      invariant 0 <= i <= |records|
      invariant latest == LatestVersions(records[..i])
    {
      var r := records[i];
      LatestVersionsStep(records, i);
      if r.definitionId !in latest || r.versionNumber > latest[r.definitionId] {
        latest := latest[r.definitionId := r.versionNumber];
      }
      i := i + 1;
    }
    assert records[..i] == records;
  }

  /** The two passes of the script, over a map from definition to latest
      version, computing exactly the reference plan. */
  method ComputeDeletable(records: seq<FlowVersion>) returns (toDelete: seq<FlowVersion>)
    ensures toDelete == Deletable(records)
  {
    var latest := FindLatestVersions(records);
    toDelete := [];
    var j := 0;
    while j < |records|
      invariant 0 <= j <= |records|
      invariant toDelete == SupersededIn(records[..j], records)
    {
      var r := records[j];
      SupersededIffBelowLatest(records, j);
      assert records[..j + 1][..j] == records[..j];
      if r.versionNumber < latest[r.definitionId] {
        toDelete := toDelete + [r];
      }
      j := j + 1;
    }
    assert records[..j] == records;
  }

  // ---------------------------------------------------------------------------
  // Properties of the plan
  // ---------------------------------------------------------------------------

  lemma {:induction false} SupersededInMembership(xs: seq<FlowVersion>, all: seq<FlowVersion>, x: FlowVersion)
    ensures x in SupersededIn(xs, all) <==> x in xs && Superseded(all, x)
  {
    if |xs| > 0 {
      var init := xs[..|xs| - 1];
      SupersededInMembership(init, all, x);
      assert xs == init + [xs[|xs| - 1]];
    }
  }

  /** Retention rule: a record is in the plan iff it was returned and a
      strictly newer version of its definition was returned too. */
  lemma DeletableMembership(rs: seq<FlowVersion>, x: FlowVersion)
    ensures x in Deletable(rs) <==> x in rs && Superseded(rs, x)
  {
    SupersededInMembership(rs, rs, x);
  }

  lemma {:induction false} SupersededInMultiplicity(xs: seq<FlowVersion>, all: seq<FlowVersion>, x: FlowVersion)
    ensures multiset(SupersededIn(xs, all))[x] == if Superseded(all, x) then multiset(xs)[x] else 0
  {
    if |xs| > 0 {
      var init := xs[..|xs| - 1];
      SupersededInMultiplicity(init, all, x);
      assert xs == init + [xs[|xs| - 1]];
    }
  }

  /** A superseded record is planned once for every time it was returned,
      duplicates included; any other record is not planned at all. */
  lemma DeletableMultiplicity(rs: seq<FlowVersion>, x: FlowVersion)
    ensures multiset(Deletable(rs))[x] == if Superseded(rs, x) then multiset(rs)[x] else 0
  {
    SupersededInMultiplicity(rs, rs, x);
  }

  lemma {:induction false} SupersededInIsSubsequence(xs: seq<FlowVersion>, all: seq<FlowVersion>)
    ensures IsSubsequence(SupersededIn(xs, all), xs)
  {
    if |xs| > 0 {
      var init := xs[..|xs| - 1];
      SupersededInIsSubsequence(init, all);
      var s := SupersededIn(xs, all);
      if Superseded(all, xs[|xs| - 1]) {
        assert s[..|s| - 1] == SupersededIn(init, all);
        assert s[|s| - 1] == xs[|xs| - 1];
      } else {
        assert s == SupersededIn(init, all);
      }
    }
  }

  /** The plan keeps the input order: it is a subsequence of the records. */
  lemma DeletableIsSubsequence(rs: seq<FlowVersion>)
    ensures IsSubsequence(Deletable(rs), rs)
  {
    SupersededInIsSubsequence(rs, rs);
  }

  /** A record holding its definition's greatest returned version is never
      deleted, including every record tied at that maximum. */
  lemma LatestNeverDeletable(rs: seq<FlowVersion>, r: FlowVersion)
    requires forall s :: s in rs && s.definitionId == r.definitionId ==> s.versionNumber <= r.versionNumber
    ensures r !in Deletable(rs)
  {
    DeletableMembership(rs, r);
    if Superseded(rs, r) {
      var j :| 0 <= j < |rs| && rs[j].definitionId == r.definitionId && rs[j].versionNumber > r.versionNumber;
      assert rs[j] in rs;
    }
  }

  /** A definition with one returned version contributes nothing. */
  lemma SingletonDefinitionKept(rs: seq<FlowVersion>, r: FlowVersion)
    requires forall s :: s in rs && s.definitionId == r.definitionId ==> s == r
    ensures r !in Deletable(rs)
  {
    LatestNeverDeletable(rs, r);
  }

  /** Nothing in, nothing out. */
  lemma EmptyInputEmptyPlan()
    ensures Deletable([]) == []
  {
  }

  /** No definition loses all of its returned versions. */
  lemma DefinitionNeverEmptied(rs: seq<FlowVersion>, i: nat)
    requires i < |rs|
    ensures exists j :: 0 <= j < |rs| && rs[j].definitionId == rs[i].definitionId && rs[j] !in Deletable(rs)
  {
    LatestVersionsSound(rs);
    var latest := LatestVersions(rs);
    var d := rs[i].definitionId;
    var j :| 0 <= j < |rs| && rs[j].definitionId == d && rs[j].versionNumber == latest[d];
    forall s | s in rs && s.definitionId == d
      ensures s.versionNumber <= rs[j].versionNumber
    {
      var k :| 0 <= k < |rs| && rs[k] == s;
    }
    LatestNeverDeletable(rs, rs[j]);
  }

  lemma {:induction false} SupersededInShorter(xs: seq<FlowVersion>, all: seq<FlowVersion>, i: nat)
    requires i < |xs| && !Superseded(all, xs[i])
    ensures |SupersededIn(xs, all)| < |xs|
  {
    var init := xs[..|xs| - 1];
    if i < |xs| - 1 {
      assert init[i] == xs[i];
      SupersededInShorter(init, all, i);
    } else {
      SupersededInAtMost(init, all);
    }
  }

  lemma {:induction false} SupersededInAtMost(xs: seq<FlowVersion>, all: seq<FlowVersion>)
    ensures |SupersededIn(xs, all)| <= |xs|
  {
    if |xs| > 0 {
      SupersededInAtMost(xs[..|xs| - 1], all);
    }
  }

  /** A non-empty query result always leaves something behind. */
  lemma PlanSmallerThanInput(rs: seq<FlowVersion>)
    requires |rs| > 0
    ensures |Deletable(rs)| < |rs|
  {
    DefinitionNeverEmptied(rs, 0);
    var j :| 0 <= j < |rs| && rs[j].definitionId == rs[0].definitionId && rs[j] !in Deletable(rs);
    DeletableMembership(rs, rs[j]);
    SupersededInShorter(rs, rs, j);
  }

  /** The filter never looks at `Status`; it relies on the query having
      excluded Active versions, and then plans none. */
  lemma PlanHasNoActiveVersion(rs: seq<FlowVersion>)
    requires forall r :: r in rs ==> r.status != "Active"
    ensures forall r :: r in Deletable(rs) ==> r.status != "Active"
  {
    forall r | r in Deletable(rs)
      ensures r.status != "Active"
    {
      DeletableMembership(rs, r);
    }
  }
}

=== FILE: strings.dfy ===
/** Text helpers the script relies on through Python built-ins:
    `str.strip()`, `str(int)`, `int(str)`, `startswith`/`endswith` and
    `" OR ".join(...)`. */
module Strings {
  import opened Wrappers

  // ---------------------------------------------------------------------------
  // Whitespace and str.strip()
  // ---------------------------------------------------------------------------

  /** The characters for which Python's `str.isspace()` holds, i.e. the set
      that `str.strip()` with no argument removes. */
  predicate IsSpace(c: char) {
    || ('\t' <= c <= '\r')
    || ('\U{1C}' <= c <= '\U{1F}')
    || c == ' '
    || c == '\U{85}'
    || c == '\U{A0}'
    || c == '\U{1680}'
    || ('\U{2000}' <= c <= '\U{200A}')
    || c == '\U{2028}'
    || c == '\U{2029}'
    || c == '\U{202F}'
    || c == '\U{205F}'
    || c == '\U{3000}'
  }

  predicate AllSpace(s: string) {
    forall i :: 0 <= i < |s| ==> IsSpace(s[i])
  }

  /** Neither end of `s` is whitespace (an empty string qualifies). */
  predicate Trimmed(s: string) {
    |s| == 0 || (!IsSpace(s[0]) && !IsSpace(s[|s| - 1]))
  }

  /** Number of whitespace characters at the front of `s`. */
  function LeadingSpaces(s: string): (n: nat)
    ensures n <= |s| && AllSpace(s[..n])
    ensures n <= |s| && (n < |s| ==> !IsSpace(s[n]))
  {
    if |s| == 0 || !IsSpace(s[0]) then 0
    else
      var k := LeadingSpaces(s[1..]);
      assert s[1..][..k] == s[1..k + 1];
      1 + k
  }

  /** Number of whitespace characters at the back of `s`. */
  function TrailingSpaces(s: string): (n: nat)
    ensures n <= |s| && AllSpace(s[|s| - n..])
    ensures n <= |s| && (n < |s| ==> !IsSpace(s[|s| - 1 - n]))
  {
    if |s| == 0 || !IsSpace(s[|s| - 1]) then 0
    else
      var k := TrailingSpaces(s[..|s| - 1]);
      assert s[..|s| - 1][|s| - 1 - k..] == s[|s| - 1 - k..|s| - 1];
      1 + k
  }

  /** Python's `s.strip()`: the infix of `s` left after removing whitespace
      from both ends. */
  function Strip(s: string): (r: string)
    ensures Trimmed(r)
    ensures LeadingSpaces(s) + |r| <= |s| && r == s[LeadingSpaces(s)..LeadingSpaces(s) + |r|]
    ensures AllSpace(s[..LeadingSpaces(s)])
    ensures LeadingSpaces(s) + |r| <= |s| && AllSpace(s[LeadingSpaces(s) + |r|..])
  {
    var a := LeadingSpaces(s);
    var t := s[a..];
    var b := TrailingSpaces(t);
    assert t[|t| - b..] == s[a + (|t| - b)..];
    t[..|t| - b]
  }

  /** Stripping leaves a string that has no whitespace at its ends alone, so
      stripping twice is stripping once. */
  lemma StripTrimmed(s: string)
    requires Trimmed(s)
    ensures Strip(s) == s
  {
    if |s| > 0 {
      assert LeadingSpaces(s) == 0;
      assert TrailingSpaces(s) == 0;
    }
  }

  lemma StripIdempotent(s: string)
    ensures Strip(Strip(s)) == Strip(s)
  {
    StripTrimmed(Strip(s));
  }

  // ---------------------------------------------------------------------------
  // Prefix and suffix tests
  // ---------------------------------------------------------------------------

  /** Python's `s.startswith(p)`. */
  predicate StartsWith(s: string, p: string) {
    |p| <= |s| && s[..|p|] == p
  }

  /** Python's `s.endswith(p)`. */
  predicate EndsWith(s: string, p: string) {
    |p| <= |s| && s[|s| - |p|..] == p
  }

  /** Text put between a prefix and a suffix keeps both. */
  lemma Around(a: string, m: string, e: string)
    ensures StartsWith(a + m + e, a) && EndsWith(a + m + e, e)
  {
    var w := a + m + e;
    assert w[..|a|] == a;
    assert w[|w| - |e|..] == e;
  }

  /** `t` appears in `s` starting at position `o`. */
  predicate OccursAt(s: string, t: string, o: nat) {
    o + |t| <= |s| && s[o..o + |t|] == t
  }

  // ---------------------------------------------------------------------------
  // Decimal numerals: str(int) and int(str)
  // ---------------------------------------------------------------------------

  predicate IsDigit(c: char) {
    '0' <= c <= '9'
  }

  predicate AllDigits(s: string) {
    forall i :: 0 <= i < |s| ==> IsDigit(s[i])
  }

  function DigitChar(d: nat): (c: char)
    requires d < 10
    ensures IsDigit(c)
  {
    (('0' as int) + d) as char
  }

  function DigitValue(c: char): (d: nat)
    requires IsDigit(c)
    ensures d < 10
  {
    (c as int) - ('0' as int)
  }

  /** The value of a string of decimal digits, most significant first. */
  function DigitsValue(s: string): nat
    requires AllDigits(s)
  {
    if |s| == 0 then 0
    else 10 * DigitsValue(s[..|s| - 1]) + DigitValue(s[|s| - 1])
  }

  /** Python's `str(n)` for a non-negative integer. */
  function NatToString(n: nat): (s: string)
    ensures |s| > 0
    ensures AllDigits(s)
  {
    if n < 10 then [DigitChar(n)]
    else NatToString(n / 10) + [DigitChar(n % 10)]
  }

  /** Python's `str(i)` for any integer. */
  function IntToString(i: int): (s: string)
    ensures |s| > 0
    ensures i >= 0 ==> AllDigits(s)
    ensures i < 0 ==> s[0] == '-' && AllDigits(s[1..])
  {
    if i < 0 then "-" + NatToString(-i) else NatToString(i)
  }

  /** Reading back a rendered natural number gives the number. */
  lemma {:induction false} NatToStringValue(n: nat)
    ensures DigitsValue(NatToString(n)) == n
  {
    if n >= 10 {
      var s := NatToString(n);
      assert s[..|s| - 1] == NatToString(n / 10);
      NatToStringValue(n / 10);
    }
  }

  /** Distinct numbers render differently. */
  lemma NatToStringInjective(m: nat, n: nat)
    requires NatToString(m) == NatToString(n)
    ensures m == n
  {
    NatToStringValue(m);
    NatToStringValue(n);
  }

  /** A numeral as Python 3's `int()` accepts it after the surrounding
      whitespace is gone: ASCII digits, optionally with single underscores
      between digits. */
  predicate IsNumeral(s: string) {
    && |s| > 0
    && IsDigit(s[0])
    && IsDigit(s[|s| - 1])
    && (forall i :: 0 <= i < |s| ==> IsDigit(s[i]) || s[i] == '_')
    && (forall i :: 0 <= i < |s| - 1 ==> s[i] == '_' ==> s[i + 1] != '_')
  }

  /** The digits of a numeral with its underscores removed. */
  function WithoutUnderscores(s: string): (r: string)
    requires forall i :: 0 <= i < |s| ==> IsDigit(s[i]) || s[i] == '_'
    ensures AllDigits(r)
    ensures |r| <= |s|
    ensures AllDigits(s) ==> r == s
  {
    if |s| == 0 then ""
    else
      var rest := WithoutUnderscores(s[..|s| - 1]);
      if s[|s| - 1] == '_' then rest else rest + [s[|s| - 1]]
  }

  /** Python's `int(s)` on a string with no surrounding whitespace: `None`
      where Python raises `ValueError`. */
  function ParseInt(s: string): (r: Option<int>)
    ensures r.Some? <==> IsNumeral(s) || (|s| > 0 && (s[0] == '+' || s[0] == '-') && IsNumeral(s[1..]))
    ensures IsNumeral(s) ==> r == Some(DigitsValue(WithoutUnderscores(s)))
    ensures |s| > 0 && s[0] == '+' && IsNumeral(s[1..]) ==> r == Some(DigitsValue(WithoutUnderscores(s[1..])) as int)
    ensures |s| > 0 && s[0] == '-' && IsNumeral(s[1..]) ==> r == Some(-(DigitsValue(WithoutUnderscores(s[1..])) as int))
    ensures r.Some? && r.value < 0 ==> |s| > 0 && s[0] == '-'
    ensures AllDigits(s) && |s| > 0 ==> r == Some(DigitsValue(s))
    ensures |s| == 0 ==> r.None?
  {
    if |s| > 0 && (s[0] == '+' || s[0] == '-') then
      var body := s[1..];
      if IsNumeral(body) then
        var v: int := DigitsValue(WithoutUnderscores(body));
        Some(if s[0] == '-' then -v else v)
      else None
    else if IsNumeral(s) then Some(DigitsValue(WithoutUnderscores(s)))
    else None
  }

  /** `int(str(i)) == i`. */
  lemma IntToStringRoundTrip(i: int)
    ensures ParseInt(IntToString(i)) == Some(i)
  {
    var n: nat := if i < 0 then -i else i;
    var d := NatToString(n);
    NatToStringValue(n);
    assert IsNumeral(d);
    assert WithoutUnderscores(d) == d;
    if i < 0 {
      var s := IntToString(i);
      assert s == "-" + d;
      assert s[1..] == d;
    } else {
      assert IntToString(i) == d;
      assert d[0] != '+' && d[0] != '-';
    }
  }

  // ---------------------------------------------------------------------------
  // sep.join(parts)
  // ---------------------------------------------------------------------------

  /** Python's `sep.join(parts)`. */
  function Join(sep: string, parts: seq<string>): string {
    if |parts| == 0 then ""
    else if |parts| == 1 then parts[0]
    else parts[0] + sep + Join(sep, parts[1..])
  }

  /** Where part `i` starts in `Join(sep, parts)`: every earlier part plus one
      separator after each. */
  function PartOffset(sep: string, parts: seq<string>, i: nat): nat
    requires i <= |parts|
  {
    if i == 0 then 0
    else PartOffset(sep, parts, i - 1) + |parts[i - 1]| + |sep|
  }

  lemma PartOffsetShift(sep: string, parts: seq<string>, i: nat)
    requires 1 <= i <= |parts|
    ensures PartOffset(sep, parts, i)
         == |parts[0]| + |sep| + PartOffset(sep, parts[1..], i - 1)
  {
    if i > 1 {
      PartOffsetShift(sep, parts, i - 1);
    }
  }

  /** A slice inside the left operand of a concatenation. */
  lemma SliceOfLeft(a: string, b: string, lo: nat, hi: nat)
    requires lo <= hi <= |a|
    ensures (a + b)[lo..hi] == a[lo..hi]
  {
    forall k | 0 <= k < hi - lo
      ensures (a + b)[lo..hi][k] == a[lo..hi][k]
    {
      assert (a + b)[lo + k] == a[lo + k];
    }
  }

  /** A slice inside the right operand of a concatenation. */
  lemma SliceOfRight(a: string, b: string, lo: nat, hi: nat)
    requires lo <= hi <= |b|
    ensures (a + b)[|a| + lo..|a| + hi] == b[lo..hi]
  {
    forall k | 0 <= k < hi - lo
      ensures (a + b)[|a| + lo..|a| + hi][k] == b[lo..hi][k]
    {
      assert (a + b)[|a| + lo + k] == b[lo + k];
    }
  }

  /** Text found inside the middle operand is found in the whole, shifted by
      the length of what is put in front. */
  lemma OccursInMiddle(head: string, mid: string, tail: string, t: string, o: nat)
    requires OccursAt(mid, t, o)
    ensures OccursAt(head + mid + tail, t, |head| + o)
  {
    SliceOfLeft(head + mid, tail, |head| + o, |head| + o + |t|);
    SliceOfRight(head, mid, o, o + |t|);
  }

  /** The joined text's length: the parts plus one separator between each
      neighbouring pair. */
  lemma {:induction false} JoinLength(sep: string, parts: seq<string>)
    requires |parts| > 0
    ensures |Join(sep, parts)| == PartOffset(sep, parts, |parts| - 1) + |parts[|parts| - 1]|
  {
    if |parts| > 1 {
      JoinLength(sep, parts[1..]);
      PartOffsetShift(sep, parts, |parts| - 1);
      assert parts[1..][|parts[1..]| - 1] == parts[|parts| - 1];
    }
  }

  /** The joined text has every part at its offset, in order. */
  lemma {:induction false} JoinLayout(sep: string, parts: seq<string>, i: nat)
    requires i < |parts|
    ensures |Join(sep, parts)|
         == PartOffset(sep, parts, |parts| - 1) + |parts[|parts| - 1]|
    ensures PartOffset(sep, parts, i) + |parts[i]| <= |Join(sep, parts)|
    ensures Join(sep, parts)[PartOffset(sep, parts, i)..PartOffset(sep, parts, i) + |parts[i]|]
         == parts[i]
  {
    JoinLength(sep, parts);
    if |parts| > 1 {
      var front := parts[0] + sep;
      var rest := Join(sep, parts[1..]);
      assert Join(sep, parts) == front + rest;
      if i == 0 {
        SliceOfLeft(front, rest, 0, |parts[0]|);
        SliceOfLeft(parts[0], sep, 0, |parts[0]|);
        assert parts[0][0..|parts[0]|] == parts[0];
      } else {
        var o := PartOffset(sep, parts[1..], i - 1);
        JoinLayout(sep, parts[1..], i - 1);
        PartOffsetShift(sep, parts, i);
        assert parts[1..][i - 1] == parts[i];
        SliceOfRight(front, rest, o, o + |parts[i]|);
      }
    }
  }

  /** Right after every part but the last comes the separator itself. */
  lemma {:induction false} JoinSeparator(sep: string, parts: seq<string>, i: nat)
    requires i + 1 < |parts|
    ensures OccursAt(Join(sep, parts), sep, PartOffset(sep, parts, i) + |parts[i]|)
  {
    var front := parts[0] + sep;
    var rest := Join(sep, parts[1..]);
    assert Join(sep, parts) == front + rest;
    if i == 0 {
      SliceOfLeft(front, rest, |parts[0]|, |parts[0]| + |sep|);
      SliceOfRight(parts[0], sep, 0, |sep|);
      assert sep[0..|sep|] == sep;
    } else {
      JoinSeparator(sep, parts[1..], i - 1);
      PartOffsetShift(sep, parts, i);
      assert parts[1..][i - 1] == parts[i];
      var o := PartOffset(sep, parts[1..], i - 1) + |parts[i]|;
      OccursInMiddle(front, rest, "", sep, o);
      assert front + rest + "" == front + rest;
    }
  }
}
